=== FILE: README.md ===
# Contract wizard and sign-up rules of exo-frontend, in Dafny

This project models the decision logic of three parts of the exo-frontend
React application, as pure Dafny functions over strings, sequences and small
records, and proves properties about them.

- **Contract creation page** (`ContractCreatePage.tsx`).
  - The classifier that maps a server error message to a translation key.
  - The key chosen when a submission fails.
  - The wizard state: the current step, the draft the info form edits, and the review record.
  - The wizard's transitions: step clicks, info-form submit, the `form-reset` listener, the project fetch and the edit-mode contract load.
  - The multipart payload sent on submission.
- **Review step** (`ContractReviewForm.tsx`): `formatDate`, `formatAmount`, `renderFileList`, the address table, the placeholder dashes and the currency default, combined into one view of the whole review.
- **Sign-up form** (`SignUpForm.tsx`).
  - The password-strength meter.
  - The field rules of the validation schema, including a faithful reading of the password pattern.
  - The submit-button predicate.
  - The chained mobile-check and OTP requests, with the message each outcome shows.

Files:

| file | module | contents |
|---|---|---|
| `Options.dfy` | `Options` | `Option`, JavaScript truthiness of optional strings, `a \|\| b` |
| `Strings.dfy` | `Strings` | ASCII lower-casing, `includes`, join/split on one character, integer rendering and parsing, `padStart` |
| `ContractErrors.dfy` | `ContractErrors` | the error classifier, its rule table, the `onError` key selection |
| `ContractWizard.dfy` | `ContractWizard` | wizard data model, transitions, submission payload |
| `ContractReview.dfy` | `ContractReview` | the review step's formatting and the whole review view |
| `SignUp.dfy` | `SignUp` | the sign-up form's rules and submission flow |

Network calls, toasts, navigation and the React state hooks are not executed
by the model. Each call's outcome is an argument, and each effect is a value
in the result: the request bodies, the toast, the navigation target.
Third-party computations are function parameters:

- the number formatter `formatAmountUtil`;
- `parseFloat(...).toString()`;
- the moment-based signing-date reformatting;
- `new Date(text)`;
- the schema library's e-mail check.

Three behaviours of the code differ from what a reader of the page would
expect; the model follows the code:

- A mobile-check failure shows the server's message on status 400. It is not tied to a conflict status.
- The "update failed" key replaces the classified key only on status 422 with a contract id. A non-422 failure is still classified from its message when it is editing.
- The review's file list can throw. A file entry with no `original_name` and no nested `file` object makes `file.file.name` fail, so the review is not total on missing data (`RenderFileList`, `Thrown`).

## Model

| member | source | states |
|---|---|---|
| ContractErrors.ContractErrorKey | src/pages/Dashboard/contractor/ContractCreatePage.tsx:104-142 | The key is always one of the classifier's eight keys and never `contract_amount_invalid`. A lower-cased message with "amount" and "exceed" or "budget" gives `contract_amount_validation_failed`. A message with none of the sixteen keywords gives `contract_save_error`. |
| ContractErrors.AmountKeyIff | src/pages/Dashboard/contractor/ContractCreatePage.tsx:107-116 | `contract_amount_validation_failed` is returned exactly when the lower-cased message has "amount" together with "exceed" or "budget" (both directions). |
| ContractErrors.CaseInsensitive | src/pages/Dashboard/contractor/ContractCreatePage.tsx:104-105 | Two messages equal after lower-casing get the same key, and lower-casing first changes nothing. |
| ContractErrors.ChainIsTable | src/pages/Dashboard/contractor/ContractCreatePage.tsx:104-142 | The if-chain equals a first-match scan over a ten-row rule table (each row a conjunction of keyword disjunctions) with `contract_save_error` as the default. |
| ContractErrors.AmountInvalidRuleShadowed | src/pages/Dashboard/contractor/ContractCreatePage.tsx:114-126 | Whenever the invalid-amount rule would fire, the earlier amount-over-budget rule or the validation/invalid rule fires first. |
| ContractErrors.BudgetRulesSubsumed | src/pages/Dashboard/contractor/ContractCreatePage.tsx:108-116 | The "contract amount" and "total amount" rules each imply the plain "amount" rule, which gives the same key. |
| ContractErrors.DefaultBackendMessageKey | src/pages/Dashboard/contractor/ContractCreatePage.tsx:240-245 | The fallback text "Validation failed" classifies as `contract_validation_error`. |
| ContractErrors.SubmissionErrorKey | src/pages/Dashboard/contractor/ContractCreatePage.tsx:232-256 | `contract_update_failed` exactly on a 422 while editing. `contract_creation_failed` exactly on a non-422 failure without a message. A 422 while creating with no message classifies the truthy `error` text, and gives `contract_validation_error` when there is none. Otherwise a message is classified. |
| ContractWizard.InitialStateShape | src/pages/Dashboard/contractor/ContractCreatePage.tsx:89-101 | The wizard starts on the info step of a two-step list, with no files and currency "USD". |
| ContractWizard.DocumentIdsRoundTrip | src/pages/Dashboard/contractor/ContractCreatePage.tsx:197-198 | With at least one file and no comma in any id, splitting `document_ids` on commas gives back the file ids in order. A single file object counts as a one-element list. |
| ContractWizard.DocumentIdsAmbiguousWhenEmpty | src/pages/Dashboard/contractor/ContractCreatePage.tsx:197-198 | No files, an empty list, and one file with an empty id all give the same empty `document_ids`. |
| ContractWizard.ClickStep | src/pages/Dashboard/contractor/ContractCreatePage.tsx:178-182 | A click on step `i` moves there when `i` is not ahead and otherwise leaves the state unchanged. It never advances, never touches the data, and keeps a valid step valid. |
| ContractWizard.ClicksNeverAdvance | src/pages/Dashboard/contractor/ContractCreatePage.tsx:178-182 | No run of step clicks moves forward or changes the draft or the review. |
| ContractWizard.SubmitInfoAsWritten | src/pages/Dashboard/contractor/ContractCreatePage.tsx:184-193 | As written, the submit moves to step 1, the draft becomes the values, and the review shows them. The review's project `reference` becomes the contract's reference. Every other project-level field and `editProjectId` stay as they were. |
| ContractWizard.ProjectReferenceOverwritten | src/pages/Dashboard/contractor/ContractCreatePage.tsx:184-190 | Whenever the contract reference differs from the project reference, the as-written submit changes a project-level field of the review. |
| ContractWizard.SubmitInfo | src/pages/Dashboard/contractor/ContractCreatePage.tsx:184-193 | The corrected submit moves to step 1 and replaces the draft. `contractReference` and `contractName` come from `reference` and `name`, and the review shows the draft. Project-level review fields and `editProjectId` are unchanged. |
| ContractWizard.SubmitInfoIdempotent | src/pages/Dashboard/contractor/ContractCreatePage.tsx:184-193 | Submitting the same values twice equals submitting them once. |
| ContractWizard.ResetFiles | src/pages/Dashboard/contractor/ContractCreatePage.tsx:155-159 | `form-reset` empties the contract files of draft and review; every other field is unchanged. |
| ContractWizard.ResetIdempotent | src/pages/Dashboard/contractor/ContractCreatePage.tsx:155-159 | A second reset changes nothing. |
| ContractWizard.NumberAddresses | src/pages/Dashboard/contractor/ContractCreatePage.tsx:284-290 | One review address per server address, in order, with id `index + 1` and the four place fields carried over. |
| ContractWizard.AddressIdsDistinct | src/pages/Dashboard/contractor/ContractCreatePage.tsx:284-290 | Address ids are pairwise distinct and lie in 1..n. |
| ContractWizard.ApplyProject | src/pages/Dashboard/contractor/ContractCreatePage.tsx:268-304 | A failed fetch leaves the state unchanged. A successful one sets the project name, reference, amount, dates, description and files. It also sets both currencies of the review and the draft's currency, and the address list to the server's addresses numbered from 1. The review's other contract fields, everything else in the draft, the step and `editProjectId` stay. The review keeps showing the draft. |
| ContractWizard.LoadContract | src/pages/Dashboard/contractor/ContractCreatePage.tsx:310-349 | A status other than 200 leaves the state unchanged. On 200 each of the ten draft fields takes the contract's value: the amount normalised, absent reference/name as "" and absent documents as an empty list. On 200, `editProjectId` also takes the contract's project. The review and the step are untouched. |
| ContractWizard.LoadThenFetchKeepsProjectCurrency | src/pages/Dashboard/contractor/ContractCreatePage.tsx:294-297 | After an edit-mode load and the parent project's fetch, the draft's currency is the project's; every other draft field keeps the loaded contract's value. |
| ContractWizard.ReviewShowsDraftPreserved | src/pages/Dashboard/contractor/ContractCreatePage.tsx:155-193 | Submit establishes that the review shows the draft. Step clicks, reset and project fetch keep it. |
| ContractWizard.Append | src/pages/Dashboard/contractor/ContractCreatePage.tsx:200-223 | `FormData.append` adds the field name at the end and the value after the field's earlier values. |
| ContractWizard.AppendNew | src/pages/Dashboard/contractor/ContractCreatePage.tsx:200-223 | Appending under a field with no values yet gives it exactly that one value. |
| ContractWizard.AppendLeavesOthers | src/pages/Dashboard/contractor/ContractCreatePage.tsx:200-223 | Appending under one field leaves every other field's values unchanged. |
| ContractWizard.BaseEntries | src/pages/Dashboard/contractor/ContractCreatePage.tsx:200-217 | The ten always-sent fields appear once each, in source order, under their wire names. Each carries its draft value: the reformatted signing date and the comma-joined file ids. No `project_id` or `contract_id` is among them. |
| ContractWizard.BaseEntriesByAppends | src/pages/Dashboard/contractor/ContractCreatePage.tsx:200-217 | `BaseEntries` equals the payload built by the ten appends in source order, starting from an empty `FormData`. |
| ContractWizard.AddRouteIds | src/pages/Dashboard/contractor/ContractCreatePage.tsx:218-224 | `project_id` is added for a route project. A further `project_id` (the edited contract's project) and `contract_id` are added only when both a contract id and its project are known. Other fields are untouched. |
| ContractWizard.BuildPayload | src/pages/Dashboard/contractor/ContractCreatePage.tsx:195-224 | The full key order, the base values, and the exact `project_id` and `contract_id` value lists. `project_id` can appear twice. |
| ContractWizard.PayloadDocumentIds | src/pages/Dashboard/contractor/ContractCreatePage.tsx:196-214 | The payload has one `document_ids` value, and it splits back into the draft's file ids. |
| ContractWizard.ProjectIdCount | src/pages/Dashboard/contractor/ContractCreatePage.tsx:218-224 | Two `project_id` values exactly when the route names a project and a loaded contract is edited. One `contract_id` exactly when editing. |
| ContractWizard.EditPayloadCarriesIds | src/pages/Dashboard/contractor/ContractCreatePage.tsx:218-224 | After a successful contract load, the payload carries the contract id, and its last `project_id` is the loaded contract's project. |
| ContractReview.Pad2 | src/components/dashboard/contractor/ContractReviewForm.tsx:29-30 | `padStart(2, "0")` of a number below 100 is exactly two digits. |
| ContractReview.Pad2RoundTrip | src/components/dashboard/contractor/ContractReviewForm.tsx:29-30 | The two-digit rendering reads back as the number. |
| ContractReview.RenderDate | src/components/dashboard/contractor/ContractReviewForm.tsx:28-32 | The day and month parts are always two digits, with dashes at positions 2 and 5. With a four-digit year the text is DD-MM-YYYY and reads back as (day, month + 1, year). |
| ContractReview.FormatDate | src/components/dashboard/contractor/ContractReviewForm.tsx:26-51 | Never empty. A falsy value gives "-", and "-" comes only from a falsy value or the text "-". Date objects are rendered, DD-MM-YYYY text passes through, parseable text is rendered, and other text is returned unchanged. |
| ContractReview.FormatDateIdempotent | src/components/dashboard/contractor/ContractReviewForm.tsx:26-37 | A date rendered with a four-digit year, or DD-MM-YYYY text, formats to DD-MM-YYYY text that a second `formatDate` leaves unchanged. |
| ContractReview.FormatAmount | src/components/dashboard/contractor/ContractReviewForm.tsx:21-24 | The empty amount gives "". Any other amount goes to the formatter. |
| ContractReview.FormatAmountEmptyIgnoresFormatter | src/components/dashboard/contractor/ContractReviewForm.tsx:21-24 | The empty amount never reaches the formatter: every formatter gives "". |
| ContractReview.OrDash | src/components/dashboard/contractor/ContractReviewForm.tsx:253-265 | A placeholder cell is never empty. It shows "-" for an empty value, shows non-empty text unchanged, and shows "-" only for "" or "-". |
| ContractReview.EmptyCellsShowDash | src/components/dashboard/contractor/ContractReviewForm.tsx:117-277 | An empty project name, project reference, description, contract name, contract reference, place or contract amount is shown as "-". |
| ContractReview.CurrencyLabel | src/components/dashboard/contractor/ContractReviewForm.tsx:273-275 | A missing currency shows "USD". A present one is shown as is. |
| ContractReview.FileLabel | src/components/dashboard/contractor/ContractReviewForm.tsx:81 | The label is `original_name` when non-empty, else the nested file's name. It is undefined exactly when both are missing. |
| ContractReview.Labels | src/components/dashboard/contractor/ContractReviewForm.tsx:60-85 | Labels exist for a list exactly when every file has one. They come in order, one per file. |
| ContractReview.RenderFileList | src/components/dashboard/contractor/ContractReviewForm.tsx:53-88 | "-" exactly for a missing or empty list, where a single object counts as one file. It throws exactly when some file has no label. Otherwise there is one chip per file with that file's label. |
| ContractReview.ServerFilesShowOriginalNames | src/components/dashboard/contractor/ContractReviewForm.tsx:53-88 | Files that all carry an original name render as chips of those names. |
| ContractReview.ResetShowsDash | src/components/dashboard/contractor/ContractReviewForm.tsx:54 | After `form-reset`, both contract file lists render as "-". |
| ContractReview.AddressRow | src/components/dashboard/contractor/ContractReviewForm.tsx:213-216 | Four non-empty cells. Each shows its field when truthy and "-" otherwise. |
| ContractReview.AddressTableOf | src/components/dashboard/contractor/ContractReviewForm.tsx:199-223 | The `no_addresses_added` notice exactly for an empty list. Otherwise one row per address, in order. |
| ContractReview.FetchedAddressesShown | src/components/dashboard/contractor/ContractReviewForm.tsx:199-223 | After a project fetch, the table has one row per server address, in order. Each row is country, province, city and municipality, with a dash for each missing one. |
| ContractReview.View | src/components/dashboard/contractor/ContractReviewForm.tsx:117-418 | Every text cell of the review is non-empty except the project amount. The project amount is blank exactly when the amount is empty or formats to "". The notice shows exactly when there are no addresses. |
| ContractReview.SubmittedValuesShown | src/components/dashboard/contractor/ContractReviewForm.tsx:251-418 | After the corrected info submit, the contract section shows the submitted name, reference, currency, amount, place and files. The project reference and the address table are as before. |
| ContractReview.AsWrittenSubmitShowsContractReference | src/components/dashboard/contractor/ContractReviewForm.tsx:126-133 | After the submit as written, the project section's reference row shows the contract's reference, the same text as the contract reference row. |
| SignUp.ClassCount | src/components/SignUpForm.tsx:167-169 | Counts the classes present: 3 exactly when a letter, a digit and a symbol all occur; 0 exactly when none does. |
| SignUp.CheckPasswordStrength | src/components/SignUpForm.tsx:165-179 | Never the empty state. Under 8 characters the result is "week". At 8 or more: "strong" exactly with three classes, "acceptable" exactly with two, "week" exactly with fewer. |
| SignUp.StrengthMonotone | src/components/SignUpForm.tsx:165-179 | Appending characters never lowers the class count. Strong stays strong, and acceptable never falls to weak. |
| SignUp.FirstLine | src/components/SignUpForm.tsx:82 | The prefix before the first line terminator, which is what the pattern's `.*` lookaheads can see. |
| SignUp.FirstLineClasses | src/components/SignUpForm.tsx:82 | A class present in the first line is present in the password. |
| SignUp.ValidPasswordIsStrong | src/components/SignUpForm.tsx:79-85 | Every password the schema accepts shows as "strong". |
| SignUp.StrongButRejected | src/components/SignUpForm.tsx:79-85 | The converse fails: `"\na1@aaaa"` is strong but rejected by the pattern. |
| SignUp.MobileValidIffPattern | src/components/SignUpForm.tsx:70-74 | The mobile rule holds exactly when the field is 7 to 12 ASCII digits; the length rules add nothing. |
| SignUp.Errors | src/components/SignUpForm.tsx:60-89 | A field is in the error set exactly when its rule fails: names 2-20, organisation 5-40, mobile pattern, e-mail, password, and a required confirmation equal to the password. |
| SignUp.SubmitEnabled | src/components/SignUpForm.tsx:423 | The button is enabled exactly when there is no error and the terms box is checked. |
| SignUp.EnabledFormIsWellFormed | src/components/SignUpForm.tsx:60-89 | A form whose own values enable the button has names of 2-20 characters, a 7-12 digit mobile, a 5-40 character organisation, a matching confirmation and a strong password. |
| SignUp.MobileCheckError | src/components/SignUpForm.tsx:106-113 | On 400: the server's message, or "Mobile number already exists" without one. Any other failure: `mobile_validation_error`. |
| SignUp.OtpError | src/components/SignUpForm.tsx:130-136 | `email_is_already_registered` exactly on 412, `otp_send_error` otherwise. |
| SignUp.Submit | src/components/SignUpForm.tsx:91-137 | The mobile check carries the form's e-mail, password, country code and mobile, and the language or "en". The OTP request is issued exactly when the check succeeds, with mobile = country code + mobile, `is_login` "no", and the first name the form field holds when the check resolves. Navigation to `/otp-verification` with the success toast happens exactly when both succeed. Failures give the matching error toast. |
| SignUp.OnlyFirstNameIsLive | src/components/SignUpForm.tsx:97-104 | The first-name field read when the check resolves affects only the OTP request's `first_name`: the check, the toast, the navigation and the other OTP fields do not depend on it. |
| SignUp.HandleSubmit | src/components/SignUpForm.tsx:138-163 | No request is made exactly when validation finds an error. Otherwise the submission runs. |
| SignUp.OtpMobileSplits | src/components/SignUpForm.tsx:117-118 | For a valid form, the OTP's mobile is the country code followed by the 7-12 digit national number. |
| SignUp.FailureShowsMessage | src/components/SignUpForm.tsx:106-136 | A submission with a failed call never navigates, never shows the success toast, and shows non-empty error text. |

## Left out

- React rendering, hooks, effects, modals, animation and the step indicator component: only the values they display or set are modelled.
- Submit: a failed OTP call makes the mobile check's `onSuccess` reject, so react-query also runs the mobile check's `onError` and a second error toast appears. The model shows only the OTP call's toast.
- Submit: `CheckMobileRequest` and `SendOtpRequest` are the arguments the form passes to `authService`. The service is not part of this model. The service as shown declares `sendOtp(email: string)` and posts `{ email: <its argument> }`, so the form's whole `SendOtpRequest` travels nested under `email`; it declares no `checkMobile`. The service's types do not match the form's calls.
- OtpError: the OTP handler reads a top-level `error.status`, while the mobile-check handler reads `error.response.status`. The model feeds both from one `status`, so its 412 branch assumes the HTTP layer sets a top-level `status` on the error, which is not part of this model.
- Network calls, react-query's mutation chaining and the loading flags. Call outcomes are arguments. The re-fetch of the parent project after a contract load is `ApplyProject`, applied after `LoadContract`: the fetch is started before the draft update but settles after it, so its currency replaces the contract's in the draft (`LoadThenFetchKeepsProjectCurrency`).
- Formik's bookkeeping: per-field touched state, which error message a field shows, and `isValid` before the first validation run (there the button is enabled while the form is still blank). `SubmitEnabled` takes the current error set.
- localStorage persistence of the sign-up values and the `window` event bus: only the reset's effect on the state is modelled.
- The schema library's e-mail check, `formatAmountUtil`, `parseFloat(...).toString()`, moment's signing-date reformatting and `new Date(text)`: all are function parameters. The locale- and time-zone-dependent parsing of date strings is not modelled.
- ContractErrorKey: lower-casing is ASCII only. JavaScript's `toLowerCase` also folds non-ASCII letters, which cannot affect the ASCII keywords except through special-case foldings such as the Kelvin sign.
- Errors: the length rules of the schema (names 2-20, organisation 5-40, password at least 8) count Unicode scalar values, where Yup counts UTF-16 code units. A first name of one character outside the Basic Multilingual Plane passes `min(2)` on the page but is an error in the model.
- CheckPasswordStrength: lengths count Unicode scalar values, where JavaScript counts UTF-16 code units. They differ only for characters outside the Basic Multilingual Plane.
- FormatDate: a `Date` object is always a valid calendar date; an invalid `Date` object, which the page would render as "NaN-NaN-NaN", is not modelled.
- The agency and rewarded-company rows of the review, which read fields the review record never holds and so always show "-".
- The `name` field that the spread in `handleFormSubmit` also copies onto the review record, which the review never displays.
- The Yup messages' translation texts, toasts' display, and the success modal after contract creation.

## Findings

| source | as written | input that shows it | evidently intended | confidence | as-written member | corrected member |
|---|---|---|---|---|---|---|
| src/pages/Dashboard/contractor/ContractCreatePage.tsx:185-190 | `handleFormSubmit` spreads all of `values` over the review record, so the contract's `reference` also replaces the project's `reference` shown in the project section | project reference "P-9", contract reference "C-1": after submit the project section shows "C-1" | the contract reference goes only to `contractReference`; the project reference keeps the fetched value | medium; not executed | ContractWizard.SubmitInfoAsWritten, ContractWizard.ProjectReferenceOverwritten | ContractWizard.SubmitInfo |

=== FILE: ContractErrors.dfy ===
/**
 * Mapping of a failed contract submission to the translation key of the toast
 * the contract-creation page shows: an ordered, case-insensitive keyword
 * classifier over the server's message, and the status-driven selection
 * around it (ContractCreatePage.tsx, getContractErrorTranslationKey and the
 * create mutation's onError).
 */
module ContractErrors {
  import opened Options
  import opened Strings

  datatype ErrorKey =
    | AmountValidationFailed
    | ValidationError
    | AlreadyExists
    | AmountInvalid
    | DateInvalid
    | RequiredFieldsMissing
    | FileUploadError
    | SaveError
    | CreationFailed
    | UpdateFailed
  {
    /** The translation key the toast looks up. */
    function Name(): string {
      match this
      case AmountValidationFailed => "contract_amount_validation_failed"
      case ValidationError => "contract_validation_error"
      case AlreadyExists => "contract_already_exists"
      case AmountInvalid => "contract_amount_invalid"
      case DateInvalid => "contract_date_invalid"
      case RequiredFieldsMissing => "required_fields_missing"
      case FileUploadError => "file_upload_error"
      case SaveError => "contract_save_error"
      case CreationFailed => "contract_creation_failed"
      case UpdateFailed => "contract_update_failed"
    }
  }

  /** The keys the classifier's text names as results. */
  const ClassifierKeys: set<ErrorKey> :=
    {AmountValidationFailed, ValidationError, AlreadyExists, AmountInvalid,
     DateInvalid, RequiredFieldsMissing, FileUploadError, SaveError}

  /** The amount-over-budget condition of the third rule, which also covers the first two. */
  predicate AmountOverBudget(e: string) {
    Contains(e, "amount") && (Contains(e, "exceed") || Contains(e, "budget"))
  }

  /** Every keyword any rule looks for. */
  const Keywords: set<string> :=
    {"contract amount", "total amount", "amount", "exceed", "budget", "validation",
     "invalid", "already exists", "duplicate", "date", "past", "required", "missing",
     "file", "upload", "reference"}

  predicate MentionsAnyKeyword(e: string) {
    exists w :: w in Keywords && Contains(e, w)
  }

  /** The rule chain, applied to an already lower-cased message; the first rule that fires decides. */
  function ClassifyLower(e: string): ErrorKey {
    if Contains(e, "contract amount") && Contains(e, "exceed") && Contains(e, "budget") then AmountValidationFailed
    else if Contains(e, "total amount") && Contains(e, "exceed") && Contains(e, "budget") then AmountValidationFailed
    else if Contains(e, "amount") && (Contains(e, "exceed") || Contains(e, "budget")) then AmountValidationFailed
    else if Contains(e, "validation") || Contains(e, "invalid") then ValidationError
    else if Contains(e, "already exists") || Contains(e, "duplicate") then AlreadyExists
    else if Contains(e, "amount") && (Contains(e, "invalid") || Contains(e, "exceed")) then AmountInvalid
    else if Contains(e, "date") && (Contains(e, "invalid") || Contains(e, "past")) then DateInvalid
    else if Contains(e, "required") || Contains(e, "missing") then RequiredFieldsMissing
    else if Contains(e, "file") || Contains(e, "upload") then FileUploadError
    else if Contains(e, "reference") then AlreadyExists
    else SaveError
  }

  /**
   * getContractErrorTranslationKey: the key for a server message. The result is
   * one of the keys the classifier names, yet never the invalid-amount key,
   * whose rule the earlier amount and validation rules shadow.
   */
  function ContractErrorKey(message: string): (k: ErrorKey)
    ensures k in ClassifierKeys
    ensures k != AmountInvalid
    ensures AmountOverBudget(ToLower(message)) ==> k == AmountValidationFailed
    ensures !MentionsAnyKeyword(ToLower(message)) ==> k == SaveError
  {
    ClassifyLower(ToLower(message))
  }

  /** The amount-validation key is returned exactly for messages that mention an amount with "exceed" or "budget". */
  lemma AmountKeyIff(message: string)
    ensures ContractErrorKey(message) == AmountValidationFailed <==> AmountOverBudget(ToLower(message))
  {
    var e := ToLower(message);
    if Contains(e, "contract amount") {
      assert "contract amount" == "contract " + "amount";
      ContainsTail(e, "contract ", "amount");
    }
    if Contains(e, "total amount") {
      assert "total amount" == "total " + "amount";
      ContainsTail(e, "total ", "amount");
    }
  }

  /** The classifier sees only the lower-cased message: messages equal up to case get the same key. */
  lemma CaseInsensitive(a: string, b: string)
    requires ToLower(a) == ToLower(b)
    ensures ContractErrorKey(a) == ContractErrorKey(b)
    ensures ContractErrorKey(ToLower(a)) == ContractErrorKey(a)
  {
    ToLowerIdempotent(a);
  }

  // ---------------------------------------------------------------------------
  // The rule chain as a table
  // ---------------------------------------------------------------------------

  /**
   * A rule fires when each of its clauses has at least one of its keywords in
   * the message (a conjunction of disjunctions).
   */
  datatype Rule = Rule(clauses: seq<seq<string>>, key: ErrorKey)

  predicate AnyOf(e: string, words: seq<string>) {
    |words| > 0 && (Contains(e, words[0]) || AnyOf(e, words[1..]))
  }

  predicate AllOf(e: string, clauses: seq<seq<string>>) {
    |clauses| == 0 || (AnyOf(e, clauses[0]) && AllOf(e, clauses[1..]))
  }

  predicate Fires(e: string, r: Rule) {
    AllOf(e, r.clauses)
  }

  lemma AnyOfOne(e: string, a: string)
    ensures AnyOf(e, [a]) <==> Contains(e, a)
  {
    assert [a][1..] == [];
  }

  lemma AnyOfPair(e: string, a: string, b: string)
    ensures AnyOf(e, [a, b]) <==> Contains(e, a) || Contains(e, b)
  {
    assert [a, b][1..] == [b];
    AnyOfOne(e, b);
  }

  lemma AllOfOne(e: string, c0: seq<string>)
    ensures AllOf(e, [c0]) <==> AnyOf(e, c0)
  {
    assert [c0][1..] == [];
  }

  lemma AllOfPair(e: string, c0: seq<string>, c1: seq<string>)
    ensures AllOf(e, [c0, c1]) <==> AnyOf(e, c0) && AnyOf(e, c1)
  {
    assert [c0, c1][1..] == [c1];
    AllOfOne(e, c1);
  }

  lemma AllOfTriple(e: string, c0: seq<string>, c1: seq<string>, c2: seq<string>)
    ensures AllOf(e, [c0, c1, c2]) <==> AnyOf(e, c0) && AnyOf(e, c1) && AnyOf(e, c2)
  {
    assert [c0, c1, c2][1..] == [c1, c2];
    AllOfPair(e, c1, c2);
  }

  /** The rules of getContractErrorTranslationKey, in the order it tries them. */
  const Rules: seq<Rule> := [
    Rule([["contract amount"], ["exceed"], ["budget"]], AmountValidationFailed),
    Rule([["total amount"], ["exceed"], ["budget"]], AmountValidationFailed),
    Rule([["amount"], ["exceed", "budget"]], AmountValidationFailed),
    Rule([["validation", "invalid"]], ValidationError),
    Rule([["already exists", "duplicate"]], AlreadyExists),
    Rule([["amount"], ["invalid", "exceed"]], AmountInvalid),
    Rule([["date"], ["invalid", "past"]], DateInvalid),
    Rule([["required", "missing"]], RequiredFieldsMissing),
    Rule([["file", "upload"]], FileUploadError),
    Rule([["reference"]], AlreadyExists)
  ]

  /** What each row of the table tests, spelled out. */
  lemma RuleMeaning(e: string)
    ensures Fires(e, Rules[0]) <==> Contains(e, "contract amount") && Contains(e, "exceed") && Contains(e, "budget")
    ensures Fires(e, Rules[1]) <==> Contains(e, "total amount") && Contains(e, "exceed") && Contains(e, "budget")
    ensures Fires(e, Rules[2]) <==> Contains(e, "amount") && (Contains(e, "exceed") || Contains(e, "budget"))
    ensures Fires(e, Rules[3]) <==> Contains(e, "validation") || Contains(e, "invalid")
    ensures Fires(e, Rules[4]) <==> Contains(e, "already exists") || Contains(e, "duplicate")
    ensures Fires(e, Rules[5]) <==> Contains(e, "amount") && (Contains(e, "invalid") || Contains(e, "exceed"))
    ensures Fires(e, Rules[6]) <==> Contains(e, "date") && (Contains(e, "invalid") || Contains(e, "past"))
    ensures Fires(e, Rules[7]) <==> Contains(e, "required") || Contains(e, "missing")
    ensures Fires(e, Rules[8]) <==> Contains(e, "file") || Contains(e, "upload")
    ensures Fires(e, Rules[9]) <==> Contains(e, "reference")
  {
    AnyOfOne(e, "contract amount");
    AnyOfOne(e, "total amount");
    AnyOfOne(e, "amount");
    AnyOfOne(e, "exceed");
    AnyOfOne(e, "budget");
    AnyOfOne(e, "date");
    AnyOfOne(e, "reference");
    AnyOfPair(e, "exceed", "budget");
    AnyOfPair(e, "validation", "invalid");
    AnyOfPair(e, "already exists", "duplicate");
    AnyOfPair(e, "invalid", "exceed");
    AnyOfPair(e, "invalid", "past");
    AnyOfPair(e, "required", "missing");
    AnyOfPair(e, "file", "upload");
    AllOfTriple(e, ["contract amount"], ["exceed"], ["budget"]);
    AllOfTriple(e, ["total amount"], ["exceed"], ["budget"]);
    AllOfPair(e, ["amount"], ["exceed", "budget"]);
    AllOfOne(e, ["validation", "invalid"]);
    AllOfOne(e, ["already exists", "duplicate"]);
    AllOfPair(e, ["amount"], ["invalid", "exceed"]);
    AllOfPair(e, ["date"], ["invalid", "past"]);
    AllOfOne(e, ["required", "missing"]);
    AllOfOne(e, ["file", "upload"]);
    AllOfOne(e, ["reference"]);
  }

  /** First-match evaluation of a rule table from row `j` on, with a fallback key. */
  function FirstMatchFrom(rules: seq<Rule>, j: nat, e: string, fallback: ErrorKey): (k: ErrorKey)
    ensures k == fallback || exists i :: j <= i < |rules| && rules[i].key == k && Fires(e, rules[i])
    decreases |rules| - j
  {
    if j >= |rules| then fallback
    else if Fires(e, rules[j]) then rules[j].key
    else FirstMatchFrom(rules, j + 1, e, fallback)
  }

  /** One step of the first-match scan. */
  lemma FirstMatchStep(rules: seq<Rule>, j: nat, e: string, fallback: ErrorKey)
    requires j < |rules|
    ensures FirstMatchFrom(rules, j, e, fallback)
            == if Fires(e, rules[j]) then rules[j].key else FirstMatchFrom(rules, j + 1, e, fallback)
  {
  }

  /** The last five rows of the table, as the tail of the if-chain. */
  lemma ChainTail(e: string)
    ensures FirstMatchFrom(Rules, 5, e, SaveError) ==
      if Contains(e, "amount") && (Contains(e, "invalid") || Contains(e, "exceed")) then AmountInvalid
      else if Contains(e, "date") && (Contains(e, "invalid") || Contains(e, "past")) then DateInvalid
      else if Contains(e, "required") || Contains(e, "missing") then RequiredFieldsMissing
      else if Contains(e, "file") || Contains(e, "upload") then FileUploadError
      else if Contains(e, "reference") then AlreadyExists
      else SaveError
  {
    RuleMeaning(e);
    var r := Rules;
    FirstMatchStep(r, 9, e, SaveError);
    FirstMatchStep(r, 8, e, SaveError);
    FirstMatchStep(r, 7, e, SaveError);
    FirstMatchStep(r, 6, e, SaveError);
    FirstMatchStep(r, 5, e, SaveError);
  }

  /** The if-chain and the rule table agree on every lower-cased message. */
  lemma ChainIsTable(e: string)
    ensures ClassifyLower(e) == FirstMatchFrom(Rules, 0, e, SaveError)
  {
    RuleMeaning(e);
    ChainTail(e);
    var r := Rules;
    FirstMatchStep(r, 4, e, SaveError);
    FirstMatchStep(r, 3, e, SaveError);
    FirstMatchStep(r, 2, e, SaveError);
    FirstMatchStep(r, 1, e, SaveError);
    FirstMatchStep(r, 0, e, SaveError);
  }

  /** The invalid-amount rule (sixth) never decides: whenever it fires, the third or the fourth rule fires first. */
  lemma AmountInvalidRuleShadowed(e: string)
    requires Fires(e, Rules[5])
    ensures Fires(e, Rules[2]) || Fires(e, Rules[3])
  {
    RuleMeaning(e);
  }

  /** The first two rules are redundant: each implies the third, which gives the same key. */
  lemma BudgetRulesSubsumed(e: string)
    requires Fires(e, Rules[0]) || Fires(e, Rules[1])
    ensures Fires(e, Rules[2])
  {
    RuleMeaning(e);
    if Contains(e, "contract amount") {
      assert "contract amount" == "contract " + "amount";
      ContainsTail(e, "contract ", "amount");
    }
    if Contains(e, "total amount") {
      assert "total amount" == "total " + "amount";
      ContainsTail(e, "total ", "amount");
    }
  }

  // ---------------------------------------------------------------------------
  // Key selection in the create mutation's onError
  // ---------------------------------------------------------------------------

  /**
   * The server's answer to a failed submission: its status and the `message`
   * and `error` fields of its body (None when absent). A failure with no
   * response at all (transport error) is None.
   */
  datatype ServerResponse = ServerResponse(status: int, message: Option<string>, error: Option<string>)

  predicate Is422(r: Option<ServerResponse>) {
    r.Some? && r.value.status == 422
  }

  predicate HasMessage(r: Option<ServerResponse>) {
    r.Some? && Truthy(r.value.message)
  }

  /** The fallback text "Validation failed" classifies as a validation error. */
  lemma DefaultBackendMessageKey(m: string)
    ensures m == "Validation failed" ==> ContractErrorKey(m) == ValidationError
  {
    if m == "Validation failed" {
      ValidationFailedKey(m);
    }
  }

  lemma ValidationFailedKey(m: string)
    requires m == "Validation failed"
    ensures ContractErrorKey(m) == ValidationError
  {
    ValidationFailedLetters(m);
    ValidationPrefixKey(m);
  }

  /** The letters of the fallback text that matter to the classifier. */
  lemma ValidationFailedLetters(m: string)
    requires m == "Validation failed"
    ensures |m| >= 10 && m[..10] == "Validation"
    ensures 'x' !in m && 'X' !in m && 'b' !in m && 'B' !in m
  {
  }

  /** A message opening with "Validation" and free of x and b, in either case, is a validation error. */
  lemma ValidationPrefixKey(m: string)
    requires |m| >= 10 && m[..10] == "Validation"
    requires 'x' !in m && 'X' !in m && 'b' !in m && 'B' !in m
    ensures ContractErrorKey(m) == ValidationError
  {
    var e := ToLower(m);
    LowerKeepsAbsent(m, 'x');
    LowerKeepsAbsent(m, 'b');
    assert e[..10] == "validation";
    ClassifyValidationPrefix(e);
  }

  lemma ClassifyValidationPrefix(e: string)
    requires |e| >= 10 && e[..10] == "validation"
    requires 'x' !in e && 'b' !in e
    ensures ClassifyLower(e) == ValidationError
  {
    AbsentLetter(e, "exceed", 'x');
    AbsentLetter(e, "budget", 'b');
  }

  /**
   * The key toasted when a submission fails; `contractId` is the route
   * parameter, empty when creating rather than editing.
   */
  function SubmissionErrorKey(response: Option<ServerResponse>, contractId: string): (k: ErrorKey)
    ensures Is422(response) && contractId != "" ==> k == UpdateFailed
    ensures !Is422(response) && !HasMessage(response) ==> k == CreationFailed
    ensures k == UpdateFailed <==> Is422(response) && contractId != ""
    ensures k == CreationFailed <==> !Is422(response) && !HasMessage(response)
    ensures (Is422(response) && contractId == "" && !HasMessage(response) && !Truthy(response.value.error))
              ==> k == ValidationError
    ensures (Is422(response) && contractId == "" && !HasMessage(response) && Truthy(response.value.error))
              ==> k == ContractErrorKey(response.value.error.value)
    ensures (HasMessage(response) && !(Is422(response) && contractId != ""))
              ==> k == ContractErrorKey(response.value.message.value)
  {
    if Is422(response) then
      var data := response.value;
      var backend := OrElse(data.message, OrElse(data.error, "Validation failed"));
      var key := ContractErrorKey(backend);
      DefaultBackendMessageKey(backend);
      if contractId != "" then UpdateFailed else key
    else if HasMessage(response) then
      ContractErrorKey(response.value.message.value)
    else
      CreationFailed
  }
}

=== FILE: ContractReview.dfy ===
/**
 * The review step of the contract wizard (ContractReviewForm.tsx): a
 * read-only projection of the wizard's review record into the texts the page
 * shows. Every cell falls back to a placeholder instead of failing, with one
 * exception: a file entry with neither an original name nor a nested file
 * object makes the file list throw.
 */
module ContractReview {
  import opened Options
  import opened Strings
  import opened ContractWizard

  // ---------------------------------------------------------------------------
  // Dates
  // ---------------------------------------------------------------------------

  type Day = d: int | 1 <= d <= 31 witness 1
  type Month0 = m: int | 0 <= m <= 11 witness 0

  /** What a valid `Date` object reports: `getDate()`, `getMonth()` (0-based) and `getFullYear()`. */
  datatype CalendarDate = CalendarDate(day: Day, month0: Month0, year: int)

  /** The value handed to formatDate: absent, a `Date` object, or a string. */
  datatype DateValue = Missing | DateObject(date: CalendarDate) | Text(text: string)

  /** JavaScript falsiness of a date value: `undefined`, `null` or the empty string. */
  predicate Falsy(v: DateValue) {
    v.Missing? || (v.Text? && v.text == "")
  }

  /** `n.toString().padStart(2, "0")`. */
  function Pad2(n: nat): (r: string)
    ensures n < 100 ==> |r| == 2 && AllDigits(r)
    ensures n >= 100 ==> r == NatToString(n)
  {
    NatToStringLength(n);
    var r := PadStart(NatToString(n), 2, '0');
    assert n < 100 ==> AllDigits(r) by {
      if n < 10 {
        assert r[1..] == NatToString(n);
      }
    }
    r
  }

  /** A two-character rendering reads back as the number it came from. */
  lemma Pad2RoundTrip(n: nat)
    requires n < 100
    ensures ParseNat(Pad2(n)) == n
  {
    var s := NatToString(n);
    NatToStringLength(n);
    ParseNatToString(n);
    var r := Pad2(n);
    if n < 10 {
      assert r[1..] == s;
      assert r == "0" + s;
      ParseNatLeadingZero(s);
    }
  }

  /** The shape `^\d{2}-\d{2}-\d{4}$`: two digits, a dash, two digits, a dash, four digits. */
  predicate IsDdMmYyyy(s: string) {
    && |s| == 10
    && AllDigits(s[..2]) && s[2] == '-'
    && AllDigits(s[3..5]) && s[5] == '-'
    && AllDigits(s[6..])
  }

  /** The day, month and year numbers a DD-MM-YYYY text spells. */
  function ReadDdMmYyyy(s: string): (nat, nat, nat)
    requires IsDdMmYyyy(s)
  {
    (ParseNat(s[..2]), ParseNat(s[3..5]), ParseNat(s[6..]))
  }

  /** Where the parts of `d-m-y` sit when the day and month have two characters each. */
  lemma DashedParts(d: string, m: string, y: string)
    requires |d| == 2 && |m| == 2
    ensures (d + "-" + m + "-" + y)[..2] == d
    ensures (d + "-" + m + "-" + y)[3..5] == m
    ensures (d + "-" + m + "-" + y)[6..] == y
    ensures (d + "-" + m + "-" + y)[2] == '-' && (d + "-" + m + "-" + y)[5] == '-'
  {
  }

  /** `Number.toString` of a four-digit year is four digits that read back as the year. */
  lemma FourDigitYear(year: int)
    requires 1000 <= year <= 9999
    ensures |IntToString(year)| == 4 && AllDigits(IntToString(year))
    ensures ParseNat(IntToString(year)) == year
  {
    NatToStringLength(year);
    ParseNatToString(year);
  }

  /** The `${day}-${month}-${year}` rendering of a `Date`, with the month counted from 1. */
  function RenderDate(c: CalendarDate): (r: string)
    ensures 1000 <= c.year <= 9999 ==> IsDdMmYyyy(r) && ReadDdMmYyyy(r) == (c.day, c.month0 + 1, c.year)
    ensures |r| >= 6 && r[2] == '-' && r[5] == '-'
    ensures AllDigits(r[..2]) && AllDigits(r[3..5])
  {
    var d := Pad2(c.day);
    var m := Pad2(c.month0 + 1);
    var y := IntToString(c.year);
    DashedParts(d, m, y);
    Pad2RoundTrip(c.day);
    Pad2RoundTrip(c.month0 + 1);
    if 1000 <= c.year <= 9999 then FourDigitYear(c.year); d + "-" + m + "-" + y
    else d + "-" + m + "-" + y
  }

  /**
   * formatDate. `parse` stands for `new Date(text)` followed by the validity
   * check: None when the text is not a date JavaScript can read.
   */
  function FormatDate(v: DateValue, parse: string -> Option<CalendarDate>): (r: string)
    ensures r != ""
    ensures Falsy(v) ==> r == "-"
    ensures r == "-" ==> Falsy(v) || v == Text("-")
    ensures v.DateObject? ==> r == RenderDate(v.date)
    ensures v.Text? && IsDdMmYyyy(v.text) ==> r == v.text
    ensures v.Text? && v.text != "" && !IsDdMmYyyy(v.text) && parse(v.text).None? ==> r == v.text
    ensures v.Text? && v.text != "" && !IsDdMmYyyy(v.text) && parse(v.text).Some? ==> r == RenderDate(parse(v.text).value)
  {
    match v
    case Missing => "-"
    case DateObject(c) => RenderDate(c)
    case Text(s) =>
      if s == "" then "-"
      else if IsDdMmYyyy(s) then s
      else if parse(s).Some? then RenderDate(parse(s).value)
      else s
  }

  /** The value renders through a calendar date whose year has four digits. */
  predicate RendersFourDigitYear(v: DateValue, parse: string -> Option<CalendarDate>) {
    || (v.DateObject? && 1000 <= v.date.year <= 9999)
    || (v.Text? && v.text != "" && !IsDdMmYyyy(v.text) && parse(v.text).Some? && 1000 <= parse(v.text).value.year <= 9999)
  }

  /** A date rendered with a four-digit year is DD-MM-YYYY text, which a second formatDate leaves alone. */
  lemma FormatDateIdempotent(v: DateValue, parse: string -> Option<CalendarDate>)
    requires RendersFourDigitYear(v, parse) || (v.Text? && IsDdMmYyyy(v.text))
    ensures IsDdMmYyyy(FormatDate(v, parse))
    ensures FormatDate(Text(FormatDate(v, parse)), parse) == FormatDate(v, parse)
  {
  }

  // ---------------------------------------------------------------------------
  // Amounts, placeholders, currency
  // ---------------------------------------------------------------------------

  /**
   * formatAmount: the empty amount stays empty; any other amount goes to the
   * number formatter `fmt` (formatAmountUtil, outside the model).
   */
  function FormatAmount(amount: string, fmt: string -> string): (r: string)
    ensures amount == "" ==> r == ""
    ensures amount != "" ==> r == fmt(amount)
  {
    if amount == "" then "" else fmt(amount)
  }

  /** The empty amount never reaches the formatter: any two formatters agree on it. */
  lemma FormatAmountEmptyIgnoresFormatter(fmt1: string -> string, fmt2: string -> string)
    ensures FormatAmount("", fmt1) == FormatAmount("", fmt2) == ""
  {
  }

  /** `s || "-"`: the text itself, or a dash in place of an empty one. */
  function OrDash(s: string): (r: string)
    ensures r != ""
    ensures s == "" ==> r == "-"
    ensures s != "" ==> r == s
    ensures r == "-" ==> s == "" || s == "-"
  {
    OrElse(Some(s), "-")
  }

  /** `currency || "USD"`: the label in front of an amount. */
  function CurrencyLabel(currency: string): (r: string)
    ensures r != ""
    ensures currency != "" ==> r == currency
    ensures currency == "" ==> r == "USD"
  {
    OrElse(Some(currency), "USD")
  }

  // ---------------------------------------------------------------------------
  // File lists
  // ---------------------------------------------------------------------------

  /**
   * The chip label of one file, `file.original_name || file.file.name`: None
   * when there is no original name and no nested file object to read a name
   * from, which is where the page throws.
   */
  function FileLabel(f: UploadedFile): (r: Option<string>)
    ensures f.originalName != "" ==> r == Some(f.originalName)
    ensures f.originalName == "" ==> r == f.localName
    ensures r.None? <==> f.originalName == "" && f.localName.None?
  {
    if f.originalName != "" then Some(f.originalName) else f.localName
  }

  /** The labels of `files` in order, or None when one of them cannot be read. */
  function Labels(files: seq<UploadedFile>): (r: Option<seq<string>>)
    ensures r.Some? <==> forall i :: 0 <= i < |files| ==> FileLabel(files[i]).Some?
    ensures r.Some? ==> |r.value| == |files|
    ensures r.Some? ==> forall i :: 0 <= i < |files| ==> r.value[i] == FileLabel(files[i]).value
  {
    if |files| == 0 then Some([])
    else
      match (FileLabel(files[0]), Labels(files[1..]))
      case (Some(l), Some(ls)) => Some([l] + ls)
      case _ => None
  }

  /** What renderFileList shows: a dash, a row of labelled chips, or a thrown error. */
  datatype FileListView = Dash | Chips(labels: seq<string>) | Thrown

  /**
   * renderFileList. A missing or empty list shows a dash; a single file object
   * counts as a one-element list.
   */
  function RenderFileList(f: FilesField): (r: FileListView)
    ensures r.Dash? <==> FilesOf(f) == []
    ensures r.Thrown? <==> exists i :: 0 <= i < |FilesOf(f)| && FileLabel(FilesOf(f)[i]).None?
    ensures r.Chips? ==> |r.labels| == |FilesOf(f)| >= 1
    ensures r.Chips? ==> forall i :: 0 <= i < |FilesOf(f)| ==> Some(r.labels[i]) == FileLabel(FilesOf(f)[i])
  {
    var files := FilesOf(f);
    if |files| == 0 then Dash
    else
      match Labels(files)
      case Some(ls) => Chips(ls)
      case None => Thrown
  }

  /** Files the server described, each with its original name, show as chips of those names. */
  lemma ServerFilesShowOriginalNames(f: FilesField)
    requires |FilesOf(f)| >= 1
    requires forall i :: 0 <= i < |FilesOf(f)| ==> FilesOf(f)[i].originalName != ""
    ensures RenderFileList(f).Chips?
    ensures forall i :: 0 <= i < |FilesOf(f)| ==> RenderFileList(f).labels[i] == FilesOf(f)[i].originalName
  {
  }

  /** After the form reset, the contract documents of the review show a dash. */
  lemma ResetShowsDash(s: WizardState)
    ensures RenderFileList(ResetFiles(s).review.contractFiles) == Dash
    ensures RenderFileList(ResetFiles(s).draft.contractFiles) == Dash
  {
  }

  // ---------------------------------------------------------------------------
  // Address table
  // ---------------------------------------------------------------------------

  /** The address section: the `no_addresses_added` notice, or one row per address. */
  datatype AddressTable = NoAddresses | Rows(rows: seq<seq<string>>)

  /** One address row: country, province, city and municipality, a dash for each missing one. */
  function AddressRow(a: Address): (r: seq<string>)
    ensures |r| == 4
    ensures forall k :: 0 <= k < 4 ==> r[k] != ""
    ensures Truthy(a.country) ==> r[0] == a.country.value
    ensures Truthy(a.providence) ==> r[1] == a.providence.value
    ensures Truthy(a.city) ==> r[2] == a.city.value
    ensures Truthy(a.municipality) ==> r[3] == a.municipality.value
    ensures !Truthy(a.country) ==> r[0] == "-"
    ensures !Truthy(a.providence) ==> r[1] == "-"
    ensures !Truthy(a.city) ==> r[2] == "-"
    ensures !Truthy(a.municipality) ==> r[3] == "-"
  {
    [OrElse(a.country, "-"), OrElse(a.providence, "-"), OrElse(a.city, "-"), OrElse(a.municipality, "-")]
  }

  function AddressTableOf(xs: seq<Address>): (r: AddressTable)
    ensures r.NoAddresses? <==> |xs| == 0
    ensures r.Rows? ==> |r.rows| == |xs|
    ensures r.Rows? ==> forall i :: 0 <= i < |xs| ==> r.rows[i] == AddressRow(xs[i])
  {
    if |xs| == 0 then NoAddresses
    else Rows(seq(|xs|, i requires 0 <= i < |xs| => AddressRow(xs[i])))
  }

  /**
   * The address table after a project fetch lists the server's addresses in
   * order, one row each, with the server's values or dashes.
   */
  lemma FetchedAddressesShown(s: WizardState, p: ProjectDetails, i: int)
    requires 0 <= i < |p.address|
    ensures AddressTableOf(ApplyProject(s, Some(p)).review.address).Rows?
    ensures |AddressTableOf(ApplyProject(s, Some(p)).review.address).rows| == |p.address|
    ensures AddressTableOf(ApplyProject(s, Some(p)).review.address).rows[i] ==
              [OrElse(p.address[i].country, "-"), OrElse(p.address[i].providence, "-"),
               OrElse(p.address[i].city, "-"), OrElse(p.address[i].municipality, "-")]
  {
    var r := ApplyProject(s, Some(p)).review;
    assert r.address == NumberAddresses(p.address);
  }

  // ---------------------------------------------------------------------------
  // The whole review
  // ---------------------------------------------------------------------------

  /** The texts the review step shows, section by section. */
  datatype ReviewView = ReviewView(
    projectName: string,
    projectReference: string,
    projectCurrency: string,
    projectAmount: string,
    beginDate: string,
    endDate: string,
    description: string,
    projectFiles: FileListView,
    addresses: AddressTable,
    contractName: string,
    contractReference: string,
    contractCurrency: string,
    contractAmount: string,
    dateOfSigning: string,
    place: string,
    contractFiles: FileListView)

  /**
   * The review page for review record `d`. Both amount rows take their
   * currency label from the contract currency field.
   */
  function View(d: ReviewData, fmt: string -> string, parse: string -> Option<CalendarDate>): (v: ReviewView)
    ensures v.projectName != "" && v.projectReference != "" && v.description != ""
    ensures v.beginDate != "" && v.endDate != "" && v.dateOfSigning != ""
    ensures v.contractName != "" && v.contractReference != "" && v.contractAmount != "" && v.place != ""
    ensures v.projectCurrency != "" && v.contractCurrency != ""
    ensures v.projectAmount == "" <==> d.projectAmount == "" || fmt(d.projectAmount) == ""
    ensures v.addresses.NoAddresses? <==> |d.address| == 0
  {
    ReviewView(
      OrDash(d.projectName),
      OrDash(d.reference),
      CurrencyLabel(d.currency),
      FormatAmount(d.projectAmount, fmt),
      OrDash(FormatDate(Text(d.beginDate), parse)),
      OrDash(FormatDate(Text(d.endDate), parse)),
      OrDash(d.description),
      RenderFileList(d.projectFiles),
      AddressTableOf(d.address),
      OrDash(d.contractName),
      OrDash(d.contractReference),
      CurrencyLabel(d.currency),
      OrDash(FormatAmount(d.amount, fmt)),
      FormatDate(Text(d.dateOfSigning), parse),
      OrDash(d.place),
      RenderFileList(d.contractFiles))
  }

  /**
   * Once the info step is submitted (with the project reference kept), the
   * contract section of the review shows exactly the submitted values, and
   * the project section is whatever it was.
   */
  lemma SubmittedValuesShown(s: WizardState, values: Draft, fmt: string -> string,
                             parse: string -> Option<CalendarDate>)
    ensures View(SubmitInfo(s, values).review, fmt, parse).contractName == OrDash(values.name)
    ensures View(SubmitInfo(s, values).review, fmt, parse).contractReference == OrDash(values.reference)
    ensures View(SubmitInfo(s, values).review, fmt, parse).contractCurrency == CurrencyLabel(values.currency)
    ensures View(SubmitInfo(s, values).review, fmt, parse).contractAmount == OrDash(FormatAmount(values.amount, fmt))
    ensures View(SubmitInfo(s, values).review, fmt, parse).place == OrDash(values.place)
    ensures View(SubmitInfo(s, values).review, fmt, parse).contractFiles == RenderFileList(values.contractFiles)
    ensures View(SubmitInfo(s, values).review, fmt, parse).projectReference == View(s.review, fmt, parse).projectReference
    ensures View(SubmitInfo(s, values).review, fmt, parse).addresses == View(s.review, fmt, parse).addresses
  {
  }

  /**
   * With the submit as written, the project section's reference row shows the
   * contract's reference instead of the fetched project reference.
   */
  lemma AsWrittenSubmitShowsContractReference(s: WizardState, values: Draft, fmt: string -> string,
                                              parse: string -> Option<CalendarDate>)
    ensures View(SubmitInfoAsWritten(s, values).review, fmt, parse).projectReference == OrDash(values.reference)
    ensures View(SubmitInfoAsWritten(s, values).review, fmt, parse).contractReference == OrDash(values.reference)
  {
  }

  /** Every placeholder cell of the review shows a dash for an empty value. */
  lemma EmptyCellsShowDash(d: ReviewData, fmt: string -> string, parse: string -> Option<CalendarDate>)
    ensures d.projectName == "" ==> View(d, fmt, parse).projectName == "-"
    ensures d.reference == "" ==> View(d, fmt, parse).projectReference == "-"
    ensures d.description == "" ==> View(d, fmt, parse).description == "-"
    ensures d.contractName == "" ==> View(d, fmt, parse).contractName == "-"
    ensures d.contractReference == "" ==> View(d, fmt, parse).contractReference == "-"
    ensures d.place == "" ==> View(d, fmt, parse).place == "-"
    ensures d.amount == "" ==> View(d, fmt, parse).contractAmount == "-"
  {
  }
}

=== FILE: ContractWizard.dfy ===
/**
 * The contract-creation wizard of ContractCreatePage.tsx: its state record
 * (current step, the draft the info form edits, the review projection), the
 * transitions the page applies to it, and the submission payload it builds.
 * Network calls are outside the model: their outcomes arrive as arguments.
 */
module ContractWizard {
  import opened Options
  import opened Strings

  // ---------------------------------------------------------------------------
  // Data model
  // ---------------------------------------------------------------------------

  /**
   * A reference to an uploaded file. `originalName` is "" when the server sent
   * none; `localName` is the name of the nested browser File object, None when
   * there is no such object.
   */
  datatype UploadedFile = UploadedFile(id: string, originalName: string, localName: Option<string>)

  /** The files field, which holds a list, a single file object, or nothing. */
  datatype FilesField = NoFiles | OneFile(file: UploadedFile) | FileList(files: seq<UploadedFile>)

  /** An address as the project service returns it. */
  datatype ServerAddress = ServerAddress(
    serverId: string,
    country: Option<string>,
    providence: Option<string>,
    city: Option<string>,
    municipality: Option<string>)

  /** An address row of the review projection; `id` is its 1-based position. */
  datatype Address = Address(
    id: nat,
    country: Option<string>,
    providence: Option<string>,
    city: Option<string>,
    municipality: Option<string>)

  /** FormDataProps: the contract fields the info form edits. */
  datatype Draft = Draft(
    signedBy: string,
    position: string,
    organization: string,
    amount: string,
    currency: string,
    dateOfSigning: string,
    contractFiles: FilesField,
    place: string,
    reference: string,
    name: string)

  /** ContractReviewData: project-level fields plus the contract fields shown for review. */
  datatype ReviewData = ReviewData(
    projectName: string,
    reference: string,
    projectAmount: string,
    projectCurrency: string,
    signedBy: string,
    position: string,
    beginDate: string,
    endDate: string,
    description: string,
    projectFiles: FilesField,
    address: seq<Address>,
    organization: string,
    amount: string,
    currency: string,
    dateOfSigning: string,
    contractFiles: FilesField,
    place: string,
    contractReference: string,
    contractName: string)

  /** The page's state; `editProjectId` is the project of the contract being edited ("" when creating). */
  datatype WizardState = WizardState(currentStep: int, draft: Draft, review: ReviewData, editProjectId: string)

  datatype Step = Info | Review

  /** The step indicator's entries, in order. */
  const Steps: seq<Step> := [Info, Review]

  predicate ValidStep(i: int) {
    0 <= i < |Steps|
  }

  const InitialDraft: Draft := Draft("", "", "", "", "USD", "", FileList([]), "", "", "")

  const InitialReview: ReviewData :=
    ReviewData("", "", "", "", "", "", "", "", "", FileList([]), [], "", "", "", "", FileList([]), "", "", "")

  const InitialState: WizardState := WizardState(0, InitialDraft, InitialReview, "")

  /** The page starts on the info step with a blank draft whose currency is USD. */
  lemma InitialStateShape()
    ensures ValidStep(InitialState.currentStep) && Steps[InitialState.currentStep] == Info
    ensures InitialState.draft.currency == "USD"
    ensures FilesOf(InitialState.draft.contractFiles) == []
    ensures |Steps| == 2 && Steps[1] == Review
  {
  }

  // ---------------------------------------------------------------------------
  // Files
  // ---------------------------------------------------------------------------

  /** The list a files field stands for: a single file object is a one-element list. */
  function FilesOf(f: FilesField): (r: seq<UploadedFile>)
    ensures f.OneFile? ==> r == [f.file]
    ensures f.NoFiles? ==> r == []
    ensures f.FileList? ==> r == f.files
  {
    match f
    case NoFiles => []
    case OneFile(file) => [file]
    case FileList(files) => files
  }

  function Ids(files: seq<UploadedFile>): (r: seq<string>)
    ensures |r| == |files|
    ensures forall i :: 0 <= i < |files| ==> r[i] == files[i].id
  {
    if |files| == 0 then [] else [files[0].id] + Ids(files[1..])
  }

  /** The `document_ids` value: the files' ids in order, comma-separated. */
  function DocumentIds(f: FilesField): string {
    Join(Ids(FilesOf(f)), ',')
  }

  /**
   * The server can recover the id list from `document_ids` when there is at
   * least one file and no id contains a comma.
   */
  lemma DocumentIdsRoundTrip(f: FilesField)
    requires |FilesOf(f)| >= 1
    requires forall i :: 0 <= i < |FilesOf(f)| ==> ',' !in FilesOf(f)[i].id
    ensures Split(DocumentIds(f), ',') == Ids(FilesOf(f))
    ensures f.OneFile? ==> DocumentIds(f) == f.file.id
  {
    SplitJoin(Ids(FilesOf(f)), ',');
  }

  /** No files and one file with an empty id give the same `document_ids`, so the round trip needs a file. */
  lemma DocumentIdsAmbiguousWhenEmpty(f: UploadedFile)
    requires f.id == ""
    ensures DocumentIds(NoFiles) == DocumentIds(FileList([])) == DocumentIds(OneFile(f)) == ""
  {
  }

  // ---------------------------------------------------------------------------
  // Transitions
  // ---------------------------------------------------------------------------

  /** handleStepClick: a click on step `i` moves there only when it is not ahead of the current step. */
  function ClickStep(s: WizardState, i: int): (r: WizardState)
    ensures r.currentStep <= s.currentStep
    ensures i <= s.currentStep ==> r.currentStep == i
    ensures i > s.currentStep ==> r == s
    ensures r.draft == s.draft && r.review == s.review && r.editProjectId == s.editProjectId
    ensures ValidStep(s.currentStep) && ValidStep(i) ==> ValidStep(r.currentStep)
  {
    if i <= s.currentStep then s.(currentStep := i) else s
  }

  /** Applies a run of step clicks in order. */
  function ClickSteps(s: WizardState, clicks: seq<int>): WizardState
    decreases |clicks|
  {
    if |clicks| == 0 then s else ClickSteps(ClickStep(s, clicks[0]), clicks[1..])
  }

  /** No run of step-indicator clicks moves the wizard forward or touches its data. */
  lemma {:induction false} ClicksNeverAdvance(s: WizardState, clicks: seq<int>)
    ensures ClickSteps(s, clicks).currentStep <= s.currentStep
    ensures ClickSteps(s, clicks).draft == s.draft
    ensures ClickSteps(s, clicks).review == s.review
    decreases |clicks|
  {
    if |clicks| > 0 {
      ClicksNeverAdvance(ClickStep(s, clicks[0]), clicks[1..]);
    }
  }

  /**
   * The review's contract fields show the draft: `reference` and `name`
   * appear as `contractReference` and `contractName`.
   */
  predicate ReviewShowsDraft(s: WizardState) {
    && s.review.signedBy == s.draft.signedBy
    && s.review.position == s.draft.position
    && s.review.organization == s.draft.organization
    && s.review.amount == s.draft.amount
    && s.review.currency == s.draft.currency
    && s.review.dateOfSigning == s.draft.dateOfSigning
    && s.review.contractFiles == s.draft.contractFiles
    && s.review.place == s.draft.place
    && s.review.contractReference == s.draft.reference
    && s.review.contractName == s.draft.name
  }

  /** The project-level part of the review, which only a project fetch may change. */
  predicate SameProjectFields(a: ReviewData, b: ReviewData) {
    && a.projectName == b.projectName
    && a.reference == b.reference
    && a.projectAmount == b.projectAmount
    && a.projectCurrency == b.projectCurrency
    && a.beginDate == b.beginDate
    && a.endDate == b.endDate
    && a.description == b.description
    && a.projectFiles == b.projectFiles
    && a.address == b.address
  }

  /** The contract part of the review other than its currency, which a project fetch also sets. */
  predicate SameContractFields(a: ReviewData, b: ReviewData) {
    && a.signedBy == b.signedBy
    && a.position == b.position
    && a.organization == b.organization
    && a.amount == b.amount
    && a.dateOfSigning == b.dateOfSigning
    && a.contractFiles == b.contractFiles
    && a.place == b.place
    && a.contractReference == b.contractReference
    && a.contractName == b.contractName
  }

  /** The contract fields of `values` copied onto a review record; `reference` goes to `contractReference`. */
  function MergeContractFields(review: ReviewData, values: Draft): ReviewData {
    review.(
      signedBy := values.signedBy,
      position := values.position,
      organization := values.organization,
      amount := values.amount,
      currency := values.currency,
      dateOfSigning := values.dateOfSigning,
      contractFiles := values.contractFiles,
      place := values.place,
      contractReference := values.reference,
      contractName := values.name)
  }

  /**
   * handleFormSubmit as written: the whole of `values` is spread over the
   * review, so its `reference` also replaces the project reference.
   */
  function SubmitInfoAsWritten(s: WizardState, values: Draft): (r: WizardState)
    ensures r.currentStep == 1 && r.draft == values && ReviewShowsDraft(r)
    ensures r.review.reference == values.reference
    ensures SameProjectFields(r.review, s.review.(reference := values.reference))
    ensures r.editProjectId == s.editProjectId
  {
    s.(currentStep := 1, draft := values, review := MergeContractFields(s.review, values).(reference := values.reference))
  }

  /** The project reference shown for review is lost whenever the contract's reference differs from it. */
  lemma ProjectReferenceOverwritten(s: WizardState, values: Draft)
    requires values.reference != s.review.reference
    ensures !SameProjectFields(SubmitInfoAsWritten(s, values).review, s.review)
  {
  }

  /**
   * handleFormSubmit, with the project reference kept: moves to the review
   * step, makes `values` the draft and shows it for review, leaving the
   * project-level fields alone.
   */
  function SubmitInfo(s: WizardState, values: Draft): (r: WizardState)
    ensures r.currentStep == 1 && ValidStep(r.currentStep)
    ensures r.draft == values
    ensures ReviewShowsDraft(r)
    ensures r.review.contractReference == values.reference && r.review.contractName == values.name
    ensures SameProjectFields(r.review, s.review)
    ensures r.editProjectId == s.editProjectId
  {
    s.(currentStep := 1, draft := values, review := MergeContractFields(s.review, values))
  }

  /** Submitting the same values twice is submitting them once. */
  lemma SubmitInfoIdempotent(s: WizardState, values: Draft)
    ensures SubmitInfo(SubmitInfo(s, values), values) == SubmitInfo(s, values)
  {
  }

  /** The `form-reset` listener: empties the contract files of the draft and of the review, nothing else. */
  function ResetFiles(s: WizardState): (r: WizardState)
    ensures FilesOf(r.draft.contractFiles) == [] && FilesOf(r.review.contractFiles) == []
    ensures r.draft.(contractFiles := s.draft.contractFiles) == s.draft
    ensures r.review.(contractFiles := s.review.contractFiles) == s.review
    ensures r.currentStep == s.currentStep && r.editProjectId == s.editProjectId
  {
    s.(draft := s.draft.(contractFiles := FileList([])), review := s.review.(contractFiles := FileList([])))
  }

  /** A second reset changes nothing. */
  lemma ResetIdempotent(s: WizardState)
    ensures ResetFiles(ResetFiles(s)) == ResetFiles(s)
  {
  }

  /** Project details as the project service returns them. */
  datatype ProjectDetails = ProjectDetails(
    amount: string,
    name: string,
    currency: string,
    beginDate: string,
    endDate: string,
    description: string,
    documents: FilesField,
    reference: string,
    address: seq<ServerAddress>)

  /** The address rows of the review: the server's rows in order, numbered from 1. */
  function NumberAddresses(xs: seq<ServerAddress>): (r: seq<Address>)
    ensures |r| == |xs|
    ensures forall i :: 0 <= i < |xs| ==>
      r[i] == Address(i + 1, xs[i].country, xs[i].providence, xs[i].city, xs[i].municipality)
  {
    seq(|xs|, i requires 0 <= i < |xs| =>
      Address(i + 1, xs[i].country, xs[i].providence, xs[i].city, xs[i].municipality))
  }

  /** Row numbers are distinct: they are exactly 1, 2, ..., n. */
  lemma AddressIdsDistinct(xs: seq<ServerAddress>, i: int, j: int)
    requires 0 <= i < |xs| && 0 <= j < |xs| && i != j
    ensures NumberAddresses(xs)[i].id != NumberAddresses(xs)[j].id
    ensures 1 <= NumberAddresses(xs)[i].id <= |xs|
  {
  }

  /**
   * fetchProject on success: seeds the project-level review fields and the
   * currency of both records; a failed fetch (None) leaves the state as it was.
   */
  function ApplyProject(s: WizardState, fetched: Option<ProjectDetails>): (r: WizardState)
    ensures fetched.None? ==> r == s
    ensures fetched.Some? ==>
      && r.review.reference == fetched.value.reference
      && r.review.projectCurrency == fetched.value.currency
      && r.review.currency == fetched.value.currency
      && r.draft.currency == fetched.value.currency
      && r.review.projectName == fetched.value.name
      && r.review.projectAmount == fetched.value.amount
      && r.review.beginDate == fetched.value.beginDate
      && r.review.endDate == fetched.value.endDate
      && r.review.description == fetched.value.description
      && r.review.projectFiles == fetched.value.documents
      && r.review.address == NumberAddresses(fetched.value.address)
    ensures r.currentStep == s.currentStep && r.editProjectId == s.editProjectId
    ensures r.draft.(currency := s.draft.currency) == s.draft
    ensures SameContractFields(r.review, s.review)
    ensures ReviewShowsDraft(s) ==> ReviewShowsDraft(r)
  {
    match fetched
    case None => s
    case Some(p) =>
      s.(review := s.review.(
            projectAmount := p.amount,
            projectName := p.name,
            currency := p.currency,
            projectCurrency := p.currency,
            beginDate := p.beginDate,
            endDate := p.endDate,
            description := p.description,
            projectFiles := p.documents,
            reference := p.reference,
            address := NumberAddresses(p.address)),
         draft := s.draft.(currency := p.currency))
  }

  /** Contract details as the contract service returns them (None for a field the server left out). */
  datatype ContractDetails = ContractDetails(
    projectId: string,
    signedBy: string,
    position: string,
    currency: string,
    amount: string,
    organization: string,
    place: string,
    dateOfSigning: string,
    documents: Option<seq<UploadedFile>>,
    reference: Option<string>,
    name: Option<string>)

  /**
   * The edit-mode contract fetch: on a 200 answer the draft takes the
   * contract's fields and `editProjectId` its project; any other status
   * leaves the state alone. `normaliseAmount` stands for
   * `parseFloat(amount).toString()`.
   */
  function LoadContract(s: WizardState, status: int, c: ContractDetails, normaliseAmount: string -> string): (r: WizardState)
    ensures status != 200 ==> r == s
    ensures status == 200 ==>
      && r.editProjectId == c.projectId
      && r.draft.amount == normaliseAmount(c.amount)
      && r.draft.reference == OrElse(c.reference, "")
      && r.draft.name == OrElse(c.name, "")
      && r.draft.contractFiles == FileList(c.documents.GetOr([]))
      && r.draft.signedBy == c.signedBy
      && r.draft.position == c.position
      && r.draft.currency == c.currency
      && r.draft.dateOfSigning == c.dateOfSigning
      && r.draft.organization == c.organization
      && r.draft.place == c.place
    ensures r.review == s.review && r.currentStep == s.currentStep
  {
    if status != 200 then s
    else
      s.(editProjectId := c.projectId,
         draft := s.draft.(
           amount := normaliseAmount(c.amount),
           contractFiles := FileList(c.documents.GetOr([])),
           currency := c.currency,
           dateOfSigning := c.dateOfSigning,
           organization := c.organization,
           place := c.place,
           signedBy := c.signedBy,
           position := c.position,
           reference := OrElse(c.reference, ""),
           name := OrElse(c.name, "")))
  }

  /**
   * In edit mode the parent project's fetch, started by the contract load,
   * settles after the draft update, so the draft ends with the project's
   * currency while every other loaded field stays.
   */
  lemma LoadThenFetchKeepsProjectCurrency(s: WizardState, c: ContractDetails, normaliseAmount: string -> string,
                                          p: ProjectDetails)
    ensures ApplyProject(LoadContract(s, 200, c, normaliseAmount), Some(p)).draft.currency == p.currency
    ensures ApplyProject(LoadContract(s, 200, c, normaliseAmount), Some(p)).draft.(currency := c.currency)
              == LoadContract(s, 200, c, normaliseAmount).draft
  {
  }

  /** Every transition except the edit-mode contract load keeps the review in step with the draft once it is. */
  lemma ReviewShowsDraftPreserved(s: WizardState, values: Draft, i: int, fetched: Option<ProjectDetails>)
    ensures ReviewShowsDraft(SubmitInfo(s, values))
    ensures ReviewShowsDraft(s) ==> ReviewShowsDraft(ClickStep(s, i))
    ensures ReviewShowsDraft(s) ==> ReviewShowsDraft(ResetFiles(s))
    ensures ReviewShowsDraft(s) ==> ReviewShowsDraft(ApplyProject(s, fetched))
  {
  }

  // ---------------------------------------------------------------------------
  // Submission payload
  // ---------------------------------------------------------------------------

  /** The fields of the multipart payload. */
  datatype Field =
    | SignedBy | Position | Currency | Amount | Organization | Place
    | DateOfSigning | DocumentIdsField | Reference | Name | ProjectId | ContractId
  {
    /** The field's name on the wire. */
    function WireName(): string {
      match this
      case SignedBy => "signed_by"
      case Position => "position"
      case Currency => "currency"
      case Amount => "amount"
      case Organization => "organization"
      case Place => "place"
      case DateOfSigning => "date_of_signing"
      case DocumentIdsField => "document_ids"
      case Reference => "reference"
      case Name => "name"
      case ProjectId => "project_id"
      case ContractId => "contract_id"
    }
  }

  /**
   * The multipart payload: the field names in the order they were appended
   * (a name may repeat) and, per field, the values appended under it in order.
   */
  datatype Payload = Payload(keys: seq<Field>, values: map<Field, seq<string>>)
  {
    /** `formData.getAll(f)`: every value appended under `f`, oldest first. */
    function GetAll(f: Field): seq<string> {
      if f in values then values[f] else []
    }
  }

  /** `new FormData()`. */
  const EmptyPayload := Payload([], map[])

  /** `FormData.append`: one more entry at the end, after those already there. */
  function Append(p: Payload, f: Field, value: string): (r: Payload)
    ensures r.keys == p.keys + [f]
    ensures r.GetAll(f) == p.GetAll(f) + [value]
  {
    Payload(p.keys + [f], p.values[f := p.GetAll(f) + [value]])
  }

  /** Appending under one field leaves every other field's values as they were. */
  lemma AppendLeavesOthers(p: Payload, f: Field, value: string, g: Field)
    requires g != f
    ensures Append(p, f, value).GetAll(g) == p.GetAll(g)
  {
  }

  /** The fields always sent, in order. */
  const BaseFields: seq<Field> :=
    [SignedBy, Position, Currency, Amount, Organization, Place, DateOfSigning, DocumentIdsField, Reference, Name]

  /**
   * The payload after the ten route-independent appends, in order: each draft
   * field once, under its own name.
   */
  function BaseEntries(d: Draft, formatSigningDate: string -> string): (p: Payload)
    ensures p.keys == BaseFields
    ensures p.GetAll(SignedBy) == [d.signedBy]
    ensures p.GetAll(Position) == [d.position]
    ensures p.GetAll(Currency) == [d.currency]
    ensures p.GetAll(Amount) == [d.amount]
    ensures p.GetAll(Organization) == [d.organization]
    ensures p.GetAll(Place) == [d.place]
    ensures p.GetAll(DateOfSigning) == [formatSigningDate(d.dateOfSigning)]
    ensures p.GetAll(DocumentIdsField) == [DocumentIds(d.contractFiles)]
    ensures p.GetAll(Reference) == [d.reference]
    ensures p.GetAll(Name) == [d.name]
    ensures p.GetAll(ProjectId) == [] && p.GetAll(ContractId) == []
  {
    Payload(BaseFields,
            map[SignedBy := [d.signedBy], Position := [d.position], Currency := [d.currency],
                Amount := [d.amount], Organization := [d.organization], Place := [d.place],
                DateOfSigning := [formatSigningDate(d.dateOfSigning)],
                DocumentIdsField := [DocumentIds(d.contractFiles)],
                Reference := [d.reference], Name := [d.name]])
  }

  /** Appending under a field that has no values yet starts its list with the one value. */
  lemma AppendNew(p: Payload, f: Field, value: string)
    requires f !in p.values
    ensures Append(p, f, value) == Payload(p.keys + [f], p.values[f := [value]])
  {
    assert p.GetAll(f) + [value] == [value];
  }

  /** The payload after the first five appends. */
  function FirstFiveEntries(d: Draft): Payload {
    Payload([SignedBy, Position, Currency, Amount, Organization],
            map[SignedBy := [d.signedBy], Position := [d.position], Currency := [d.currency],
                Amount := [d.amount], Organization := [d.organization]])
  }

  /** The first five appends build FirstFiveEntries. */
  lemma FirstFiveAppends(d: Draft)
    ensures FirstFiveEntries(d) ==
      Append(Append(Append(Append(Append(EmptyPayload,
        SignedBy, d.signedBy),
        Position, d.position),
        Currency, d.currency),
        Amount, d.amount),
        Organization, d.organization)
  {
    var p0 := EmptyPayload;
    AppendNew(p0, SignedBy, d.signedBy);
    var p1 := Append(p0, SignedBy, d.signedBy);
    AppendNew(p1, Position, d.position);
    var p2 := Append(p1, Position, d.position);
    AppendNew(p2, Currency, d.currency);
    var p3 := Append(p2, Currency, d.currency);
    AppendNew(p3, Amount, d.amount);
    var p4 := Append(p3, Amount, d.amount);
    AppendNew(p4, Organization, d.organization);
    assert p4.keys + [Organization] == FirstFiveEntries(d).keys;
  }

  /** The last five appends, on top of the first five, build BaseEntries. */
  lemma LastFiveAppends(d: Draft, formatSigningDate: string -> string)
    ensures BaseEntries(d, formatSigningDate) ==
      Append(Append(Append(Append(Append(FirstFiveEntries(d),
        Place, d.place),
        DateOfSigning, formatSigningDate(d.dateOfSigning)),
        DocumentIdsField, DocumentIds(d.contractFiles)),
        Reference, d.reference),
        Name, d.name)
  {
    var p5 := FirstFiveEntries(d);
    AppendNew(p5, Place, d.place);
    var p6 := Append(p5, Place, d.place);
    AppendNew(p6, DateOfSigning, formatSigningDate(d.dateOfSigning));
    var p7 := Append(p6, DateOfSigning, formatSigningDate(d.dateOfSigning));
    AppendNew(p7, DocumentIdsField, DocumentIds(d.contractFiles));
    var p8 := Append(p7, DocumentIdsField, DocumentIds(d.contractFiles));
    AppendNew(p8, Reference, d.reference);
    var p9 := Append(p8, Reference, d.reference);
    AppendNew(p9, Name, d.name);
    assert p9.keys + [Name] == BaseFields;
  }

  /** BaseEntries is what the ten `payload.append` calls of the page build, in their order. */
  lemma BaseEntriesByAppends(d: Draft, formatSigningDate: string -> string)
    ensures BaseEntries(d, formatSigningDate) ==
      Append(Append(Append(Append(Append(Append(Append(Append(Append(Append(EmptyPayload,
        SignedBy, d.signedBy),
        Position, d.position),
        Currency, d.currency),
        Amount, d.amount),
        Organization, d.organization),
        Place, d.place),
        DateOfSigning, formatSigningDate(d.dateOfSigning)),
        DocumentIdsField, DocumentIds(d.contractFiles)),
        Reference, d.reference),
        Name, d.name)
  {
    FirstFiveAppends(d);
    LastFiveAppends(d, formatSigningDate);
  }

  /** Editing: a contract id from the route together with the project of the loaded contract. */
  predicate EditingLoadedContract(contractId: string, editProjectId: string) {
    contractId != "" && editProjectId != ""
  }

  /**
   * The route-dependent tail of the payload: a `project_id` for a route
   * project, and, when editing a loaded contract, a further `project_id`
   * (the loaded contract's project) and the `contract_id`. `projectId` and
   * `contractId` are the route parameters ("" when absent).
   */
  function AddRouteIds(base: Payload, projectId: string, contractId: string, editProjectId: string): (p: Payload)
    requires base.GetAll(ProjectId) == [] && base.GetAll(ContractId) == []
    ensures p.keys == base.keys
                      + (if projectId != "" then [ProjectId] else [])
                      + (if EditingLoadedContract(contractId, editProjectId) then [ProjectId, ContractId] else [])
    ensures forall f :: f != ProjectId && f != ContractId ==> p.GetAll(f) == base.GetAll(f)
    ensures p.GetAll(ContractId) == (if EditingLoadedContract(contractId, editProjectId) then [contractId] else [])
    ensures p.GetAll(ProjectId) ==
              (if projectId != "" then [projectId] else [])
              + (if EditingLoadedContract(contractId, editProjectId) then [editProjectId] else [])
  {
    var p := if projectId != "" then Append(base, ProjectId, projectId) else base;
    if EditingLoadedContract(contractId, editProjectId) then
      Append(Append(p, ProjectId, editProjectId), ContractId, contractId)
    else p
  }

  /**
   * The payload of contractCreateMutation for draft `d`: each draft field once,
   * then the route-dependent ids. `formatSigningDate` stands for the
   * moment-based date reformatting.
   */
  function BuildPayload(d: Draft, projectId: string, contractId: string, editProjectId: string,
                        formatSigningDate: string -> string): (p: Payload)
    ensures p.keys == BaseFields
                      + (if projectId != "" then [ProjectId] else [])
                      + (if EditingLoadedContract(contractId, editProjectId) then [ProjectId, ContractId] else [])
    ensures forall f :: f != ProjectId && f != ContractId ==> p.GetAll(f) == BaseEntries(d, formatSigningDate).GetAll(f)
    ensures p.GetAll(ContractId) == (if EditingLoadedContract(contractId, editProjectId) then [contractId] else [])
    ensures p.GetAll(ProjectId) ==
              (if projectId != "" then [projectId] else [])
              + (if EditingLoadedContract(contractId, editProjectId) then [editProjectId] else [])
  {
    var base := BaseEntries(d, formatSigningDate);
    AddRouteIds(base, projectId, contractId, editProjectId)
  }

  /**
   * The payload's `document_ids` is the one value under that name, and the
   * server splits it back into the draft's file ids when there is a file and
   * no id contains a comma.
   */
  lemma PayloadDocumentIds(d: Draft, projectId: string, contractId: string, editProjectId: string,
                           formatSigningDate: string -> string)
    requires |FilesOf(d.contractFiles)| >= 1
    requires forall i :: 0 <= i < |FilesOf(d.contractFiles)| ==> ',' !in FilesOf(d.contractFiles)[i].id
    ensures |BuildPayload(d, projectId, contractId, editProjectId, formatSigningDate).GetAll(DocumentIdsField)| == 1
    ensures Split(BuildPayload(d, projectId, contractId, editProjectId, formatSigningDate).GetAll(DocumentIdsField)[0], ',')
            == Ids(FilesOf(d.contractFiles))
  {
    var p := BuildPayload(d, projectId, contractId, editProjectId, formatSigningDate);
    assert p.GetAll(DocumentIdsField) == BaseEntries(d, formatSigningDate).GetAll(DocumentIdsField);
    DocumentIdsRoundTrip(d.contractFiles);
  }

  /**
   * `project_id` goes out twice exactly when the route names a project and a
   * loaded contract is being edited; `contract_id` goes out only when editing.
   */
  lemma ProjectIdCount(d: Draft, projectId: string, contractId: string, editProjectId: string,
                       formatSigningDate: string -> string)
    ensures |BuildPayload(d, projectId, contractId, editProjectId, formatSigningDate).GetAll(ProjectId)| == 2
            <==> projectId != "" && contractId != "" && editProjectId != ""
    ensures |BuildPayload(d, projectId, contractId, editProjectId, formatSigningDate).GetAll(ContractId)| == 1
            <==> contractId != "" && editProjectId != ""
  {
  }

  /**
   * Editing: after a successful contract load, the payload for a `contractId`
   * route carries that contract id and ends its `project_id` list with the
   * loaded contract's project.
   */
  lemma EditPayloadCarriesIds(s: WizardState, c: ContractDetails, normaliseAmount: string -> string,
                              projectId: string, contractId: string, formatSigningDate: string -> string)
    requires contractId != "" && c.projectId != ""
    ensures var r := LoadContract(s, 200, c, normaliseAmount);
      BuildPayload(r.draft, projectId, contractId, r.editProjectId, formatSigningDate).GetAll(ContractId) == [contractId]
    ensures var r := LoadContract(s, 200, c, normaliseAmount);
      var ids := BuildPayload(r.draft, projectId, contractId, r.editProjectId, formatSigningDate).GetAll(ProjectId);
      |ids| >= 1 && ids[|ids| - 1] == c.projectId
  {
  }
}

=== FILE: Options.dfy ===
/** Optional values, standing for JavaScript's `undefined` next to a present value. */
module Options {

  datatype Option<+T> = None | Some(value: T) {

    /** The present value, or `default` when absent. */
    function GetOr(default: T): T {
      match this
      case Some(v) => v
      case None => default
    }
  }

  /** JavaScript truthiness of an optional string: present and not the empty string. */
  predicate Truthy(o: Option<string>) {
    o.Some? && o.value != ""
  }

  /** `o || fallback` on an optional string. */
  function OrElse(o: Option<string>, fallback: string): (r: string)
    ensures Truthy(o) ==> r == o.value
    ensures !Truthy(o) ==> r == fallback
  {
    if Truthy(o) then o.value else fallback
  }
}

=== FILE: SignUp.dfy ===
/**
 * The sign-up form (SignUpForm.tsx): the password-strength meter, the field
 * rules of the validation schema, the submit-button predicate, and the two
 * chained requests a submission makes (mobile check, then OTP) with the
 * message each outcome shows. The requests' outcomes arrive as arguments.
 */
module SignUp {
  import opened Options
  import opened Strings

  // ---------------------------------------------------------------------------
  // Character classes
  // ---------------------------------------------------------------------------

  /** The symbols the schema and the meter count as special: `@$!%*#?&`. */
  predicate IsSpecial(c: char) {
    c == '@' || c == '$' || c == '!' || c == '%' || c == '*' || c == '#' || c == '?' || c == '&'
  }

  /** `/[A-Za-z]/.test(s)`. */
  predicate HasLetter(s: string) {
    exists i :: 0 <= i < |s| && IsAsciiLetter(s[i])
  }

  /** `/\d/.test(s)`. */
  predicate HasDigit(s: string) {
    exists i :: 0 <= i < |s| && IsDigit(s[i])
  }

  /** `/[@$!%*#?&]/.test(s)`. */
  predicate HasSpecial(s: string) {
    exists i :: 0 <= i < |s| && IsSpecial(s[i])
  }

  /** How many of the three classes (letter, digit, special) occur in `s`. */
  function ClassCount(s: string): (n: nat)
    ensures n <= 3
    ensures n == 3 <==> HasLetter(s) && HasDigit(s) && HasSpecial(s)
    ensures n == 0 <==> !HasLetter(s) && !HasDigit(s) && !HasSpecial(s)
  {
    (if HasLetter(s) then 1 else 0) + (if HasDigit(s) then 1 else 0) + (if HasSpecial(s) then 1 else 0)
  }

  // ---------------------------------------------------------------------------
  // Password strength
  // ---------------------------------------------------------------------------

  /** The meter's states; `Unset` is the empty state before the first keystroke. */
  datatype Strength = Unset | Weak | Acceptable | Strong {
    /** The value handed to the password field; the source spells the weak state "week". */
    function Label(): string {
      match this
      case Unset => ""
      case Weak => "week"
      case Acceptable => "acceptable"
      case Strong => "strong"
    }
  }

  /**
   * checkPasswordStrength: under eight characters is weak; otherwise all three
   * classes make it strong, exactly two acceptable, fewer weak.
   */
  function CheckPasswordStrength(password: string): (r: Strength)
    ensures r != Unset && r.Label() != ""
    ensures |password| < 8 ==> r == Weak
    ensures |password| >= 8 ==> (r == Strong <==> ClassCount(password) == 3)
    ensures |password| >= 8 ==> (r == Acceptable <==> ClassCount(password) == 2)
    ensures |password| >= 8 ==> (r == Weak <==> ClassCount(password) <= 1)
  {
    if |password| < 8 then Weak
    else
      var hasLetter := HasLetter(password);
      var hasNumber := HasDigit(password);
      var hasSpecial := HasSpecial(password);
      if hasLetter && hasNumber && hasSpecial then Strong
      else if (hasLetter && hasNumber) || (hasLetter && hasSpecial) || (hasNumber && hasSpecial) then Acceptable
      else Weak
  }

  /** Typing more characters never lowers the meter. */
  lemma StrengthMonotone(p: string, extra: string)
    ensures ClassCount(p + extra) >= ClassCount(p)
    ensures CheckPasswordStrength(p) == Strong ==> CheckPasswordStrength(p + extra) == Strong
    ensures CheckPasswordStrength(p) == Acceptable ==> CheckPasswordStrength(p + extra) != Weak
  {
    var q := p + extra;
    if HasLetter(p) {
      var i :| 0 <= i < |p| && IsAsciiLetter(p[i]);
      assert q[i] == p[i];
    }
    if HasDigit(p) {
      var i :| 0 <= i < |p| && IsDigit(p[i]);
      assert q[i] == p[i];
    }
    if HasSpecial(p) {
      var i :| 0 <= i < |p| && IsSpecial(p[i]);
      assert q[i] == p[i];
    }
  }

  // ---------------------------------------------------------------------------
  // The password pattern of the schema
  // ---------------------------------------------------------------------------

  /** ECMAScript line terminators, the characters `.` does not match. */
  predicate IsLineTerminator(c: char) {
    c == '\n' || c == '\r' || c == '\U{2028}' || c == '\U{2029}'
  }

  /** The text before the first line terminator: what a `.*` at the start can reach. */
  function FirstLine(s: string): (r: string)
    ensures |r| <= |s| && r == s[..|r|]
    ensures forall i :: 0 <= i < |r| ==> !IsLineTerminator(r[i])
    ensures |r| < |s| ==> IsLineTerminator(s[|r|])
  {
    if |s| == 0 || IsLineTerminator(s[0]) then "" else [s[0]] + FirstLine(s[1..])
  }

  /** A class present in the first line is present in the whole text. */
  lemma FirstLineClasses(s: string)
    ensures HasLetter(FirstLine(s)) ==> HasLetter(s)
    ensures HasDigit(FirstLine(s)) ==> HasDigit(s)
    ensures HasSpecial(FirstLine(s)) ==> HasSpecial(s)
  {
    var r := FirstLine(s);
    if HasLetter(r) {
      var i :| 0 <= i < |r| && IsAsciiLetter(r[i]);
      assert s[i] == r[i];
    }
    if HasDigit(r) {
      var i :| 0 <= i < |r| && IsDigit(r[i]);
      assert s[i] == r[i];
    }
    if HasSpecial(r) {
      var i :| 0 <= i < |r| && IsSpecial(r[i]);
      assert s[i] == r[i];
    }
  }

  /**
   * `/^(?=.*[A-Za-z])(?=.*\d)(?=.*[@$!%*#?&])[A-Za-z\d@$!%*#?&]/`: the first
   * line holds a letter, a digit and a special symbol, and the first
   * character is one of those three classes. Nothing after the first
   * character is constrained by the pattern itself.
   */
  predicate MatchesPasswordPattern(s: string) {
    && |s| >= 1
    && (IsAsciiLetter(s[0]) || IsDigit(s[0]) || IsSpecial(s[0]))
    && HasLetter(FirstLine(s)) && HasDigit(FirstLine(s)) && HasSpecial(FirstLine(s))
  }

  /** The schema's password rule: required, at least eight characters, and the pattern. */
  predicate PasswordValid(p: string) {
    p != "" && |p| >= 8 && MatchesPasswordPattern(p)
  }

  /** Every password the schema accepts shows as strong on the meter. */
  lemma ValidPasswordIsStrong(p: string)
    requires PasswordValid(p)
    ensures CheckPasswordStrength(p) == Strong
  {
    FirstLineClasses(p);
  }

  /**
   * The converse fails: a password whose classes sit after a line break is
   * strong on the meter but rejected by the schema.
   */
  lemma StrongButRejected(p: string)
    requires p == "\na1@aaaa"
    ensures CheckPasswordStrength(p) == Strong
    ensures !PasswordValid(p)
  {
    assert IsAsciiLetter(p[1]) && IsDigit(p[2]) && IsSpecial(p[3]);
    assert FirstLine(p) == "";
  }

  // ---------------------------------------------------------------------------
  // The other fields of the schema
  // ---------------------------------------------------------------------------

  /** First and last name: required, 2 to 20 characters. */
  predicate NameValid(s: string) {
    s != "" && |s| >= 2 && |s| <= 20
  }

  /** Organisation name: required, 5 to 40 characters. */
  predicate OrganisationValid(s: string) {
    s != "" && |s| >= 5 && |s| <= 40
  }

  /** `/^\d{7,12}$/`. */
  predicate MatchesMobilePattern(s: string) {
    7 <= |s| <= 12 && AllDigits(s)
  }

  /** Mobile: required, at least 7 and at most 12 characters, and the digits-only pattern. */
  predicate MobileValid(s: string) {
    s != "" && |s| >= 7 && |s| <= 12 && MatchesMobilePattern(s)
  }

  /** The pattern alone decides the mobile rule: the length and required checks add nothing. */
  lemma MobileValidIffPattern(s: string)
    ensures MobileValid(s) <==> MatchesMobilePattern(s)
    ensures MobileValid(s) ==> forall i :: 0 <= i < |s| ==> '0' <= s[i] <= '9'
  {
  }

  /** Confirmation: required and equal to the password. */
  predicate ConfirmValid(confirm: string, password: string) {
    confirm != "" && confirm == password
  }

  /** The form's values; `countryCode` is the dialling prefix picked in the country picker. */
  datatype SignUpValues = SignUpValues(
    firstName: string,
    lastName: string,
    email: string,
    mobile: string,
    companyName: string,
    password: string,
    confirmPassword: string,
    countryCode: string)

  datatype FormField = FirstName | LastName | Email | Mobile | CompanyName | Password | ConfirmPassword

  /**
   * Whether one field passes its rule. `isEmail` stands for the schema
   * library's e-mail check.
   */
  predicate FieldValid(v: SignUpValues, f: FormField, isEmail: string -> bool) {
    match f
    case FirstName => NameValid(v.firstName)
    case LastName => NameValid(v.lastName)
    case Email => v.email != "" && isEmail(v.email)
    case Mobile => MobileValid(v.mobile)
    case CompanyName => OrganisationValid(v.companyName)
    case Password => PasswordValid(v.password)
    case ConfirmPassword => ConfirmValid(v.confirmPassword, v.password)
  }

  /** The fields with a validation error. */
  function Errors(v: SignUpValues, isEmail: string -> bool): (r: set<FormField>)
    ensures forall f :: f in r <==> !FieldValid(v, f, isEmail)
  {
    set f: FormField | f in {FirstName, LastName, Email, Mobile, CompanyName, Password, ConfirmPassword}
                       && !FieldValid(v, f, isEmail)
  }

  /** The create-account button is enabled only with no validation error and the terms accepted. */
  function SubmitEnabled(errors: set<FormField>, accepted: bool): (r: bool)
    ensures r ==> accepted && errors == {}
    ensures accepted && errors == {} ==> r
  {
    accepted && |errors| == 0
  }

  /**
   * Values that validate with the terms accepted have names of 2 to 20
   * characters, a mobile of 7 to 12 digits, a matching confirmation and a
   * password the meter shows as strong.
   */
  lemma EnabledFormIsWellFormed(v: SignUpValues, isEmail: string -> bool)
    requires SubmitEnabled(Errors(v, isEmail), true)
    ensures 2 <= |v.firstName| <= 20 && 2 <= |v.lastName| <= 20
    ensures 7 <= |v.mobile| <= 12 && AllDigits(v.mobile)
    ensures 5 <= |v.companyName| <= 40
    ensures v.confirmPassword == v.password
    ensures CheckPasswordStrength(v.password) == Strong
  {
    assert FieldValid(v, FirstName, isEmail) && FieldValid(v, LastName, isEmail);
    assert FieldValid(v, Mobile, isEmail) && FieldValid(v, CompanyName, isEmail);
    assert FieldValid(v, Password, isEmail) && FieldValid(v, ConfirmPassword, isEmail);
    ValidPasswordIsStrong(v.password);
  }

  // ---------------------------------------------------------------------------
  // Submission: mobile check, then OTP
  // ---------------------------------------------------------------------------

  /** The argument the form passes to `authService.checkMobile`. */
  datatype CheckMobileRequest = CheckMobileRequest(
    email: string, password: string, countryCode: string, mobile: string, lang: string)

  /**
   * The argument the form passes to `authService.sendOtp`. What the service
   * then sends over the network is outside this model.
   */
  datatype SendOtpRequest = SendOtpRequest(email: string, firstName: string, isLogin: string, mobile: string)

  /** How a request ended: success, or an error carrying an optional status and server message. */
  datatype CallOutcome = Succeeded | Failed(status: Option<int>, message: Option<string>)

  /** A toast: literal text, or a translation key. */
  datatype Toast = ErrorText(text: string) | ErrorKey(key: string) | SuccessKey(successKey: string)

  /** Everything one submission does. */
  datatype SubmitResult = SubmitResult(
    checkRequest: CheckMobileRequest,
    otpRequest: Option<SendOtpRequest>,
    toast: Toast,
    navigateTo: Option<string>)

  /** The mobile check's onError message: the server's text on 400, a fixed key otherwise. */
  function MobileCheckError(status: Option<int>, message: Option<string>): (t: Toast)
    ensures status == Some(400) ==> t.ErrorText? && t.text != ""
    ensures status == Some(400) && Truthy(message) ==> t == ErrorText(message.value)
    ensures status == Some(400) && !Truthy(message) ==> t == ErrorText("Mobile number already exists")
    ensures status != Some(400) ==> t == ErrorKey("mobile_validation_error")
  {
    if status == Some(400) then ErrorText(OrElse(message, "Mobile number already exists"))
    else ErrorKey("mobile_validation_error")
  }

  /** The OTP request's onError message: 412 means the e-mail is taken. */
  function OtpError(status: Option<int>): (t: Toast)
    ensures t.ErrorKey?
    ensures t.key == "email_is_already_registered" <==> status == Some(412)
    ensures status != Some(412) ==> t.key == "otp_send_error"
  {
    if status == Some(412) then ErrorKey("email_is_already_registered") else ErrorKey("otp_send_error")
  }

  /**
   * onSubmit for values that passed validation: the mobile check first, the
   * OTP request only after it succeeds, then a success toast and the move to
   * the OTP page. `language` is i18n's current language, "" when unset.
   * `firstNameNow` is the form's first-name field at the moment the mobile
   * check resolves: the OTP request reads it then, while its other fields
   * come from the values submitted.
   */
  function Submit(v: SignUpValues, firstNameNow: string, language: string, check: CallOutcome, otp: CallOutcome): (r: SubmitResult)
    ensures r.checkRequest.mobile == v.mobile && r.checkRequest.countryCode == v.countryCode
    ensures r.checkRequest.email == v.email && r.checkRequest.password == v.password
    ensures language != "" ==> r.checkRequest.lang == language
    ensures language == "" ==> r.checkRequest.lang == "en"
    ensures r.otpRequest.Some? <==> check.Succeeded?
    ensures r.otpRequest.Some? ==>
      && r.otpRequest.value.mobile == v.countryCode + v.mobile
      && r.otpRequest.value.isLogin == "no"
      && r.otpRequest.value.email == v.email
      && r.otpRequest.value.firstName == firstNameNow
    ensures r.navigateTo.Some? <==> check.Succeeded? && otp.Succeeded?
    ensures r.navigateTo.Some? ==> r.navigateTo.value == "/otp-verification" && r.toast == SuccessKey("otp_sent_successfully")
    ensures check.Failed? ==> r.toast == MobileCheckError(check.status, check.message)
    ensures check.Succeeded? && otp.Failed? ==> r.toast == OtpError(otp.status)
  {
    var checkRequest := CheckMobileRequest(v.email, v.password, v.countryCode, v.mobile, OrElse(Some(language), "en"));
    match check
    case Failed(status, message) =>
      SubmitResult(checkRequest, None, MobileCheckError(status, message), None)
    case Succeeded =>
      var otpRequest := SendOtpRequest(checkRequest.email, firstNameNow, "no", checkRequest.countryCode + checkRequest.mobile);
      match otp
      case Failed(status, _) => SubmitResult(checkRequest, Some(otpRequest), OtpError(status), None)
      case Succeeded => SubmitResult(checkRequest, Some(otpRequest), SuccessKey("otp_sent_successfully"), Some("/otp-verification"))
  }

  /**
   * formik's handleSubmit: values with a validation error make no request;
   * otherwise onSubmit runs.
   */
  function HandleSubmit(v: SignUpValues, isEmail: string -> bool, firstNameNow: string, language: string,
                        check: CallOutcome, otp: CallOutcome): (r: Option<SubmitResult>)
    ensures r.None? <==> Errors(v, isEmail) != {}
    ensures r.Some? ==> r.value == Submit(v, firstNameNow, language, check, otp)
  {
    if Errors(v, isEmail) != {} then None else Some(Submit(v, firstNameNow, language, check, otp))
  }

  /**
   * The OTP goes to the full number: the country code followed by the
   * national number, which for a valid form is 7 to 12 digits at the end.
   */
  lemma OtpMobileSplits(v: SignUpValues, isEmail: string -> bool, firstNameNow: string, language: string,
                        otp: CallOutcome)
    requires Errors(v, isEmail) == {}
    ensures HandleSubmit(v, isEmail, firstNameNow, language, Succeeded, otp).Some?
    ensures HandleSubmit(v, isEmail, firstNameNow, language, Succeeded, otp).value.otpRequest.Some?
    ensures var m := HandleSubmit(v, isEmail, firstNameNow, language, Succeeded, otp).value.otpRequest.value.mobile;
      |m| == |v.countryCode| + |v.mobile| && m[..|v.countryCode|] == v.countryCode
      && m[|v.countryCode|..] == v.mobile && AllDigits(m[|v.countryCode|..])
  {
    assert FieldValid(v, Mobile, isEmail);
    var m := v.countryCode + v.mobile;
    assert m[..|v.countryCode|] == v.countryCode;
    assert m[|v.countryCode|..] == v.mobile;
  }

  /** Every submission that fails shows a non-empty message and stays on the page. */
  lemma FailureShowsMessage(v: SignUpValues, firstNameNow: string, language: string, check: CallOutcome,
                            otp: CallOutcome)
    requires check.Failed? || otp.Failed?
    ensures Submit(v, firstNameNow, language, check, otp).navigateTo.None?
    ensures !Submit(v, firstNameNow, language, check, otp).toast.SuccessKey?
    ensures Submit(v, firstNameNow, language, check, otp).toast.ErrorText? ==> Submit(v, firstNameNow, language, check, otp).toast.text != ""
  {
  }

  /**
   * Only the OTP request's first name depends on the form after submission:
   * two runs that differ only in the first-name field at that moment make the
   * same mobile check, show the same toast and navigate alike.
   */
  lemma OnlyFirstNameIsLive(v: SignUpValues, n1: string, n2: string, language: string,
                            check: CallOutcome, otp: CallOutcome)
    ensures Submit(v, n1, language, check, otp).checkRequest == Submit(v, n2, language, check, otp).checkRequest
    ensures Submit(v, n1, language, check, otp).toast == Submit(v, n2, language, check, otp).toast
    ensures Submit(v, n1, language, check, otp).navigateTo == Submit(v, n2, language, check, otp).navigateTo
    ensures check.Succeeded? ==>
      Submit(v, n1, language, check, otp).otpRequest.value.(firstName := n2)
        == Submit(v, n2, language, check, otp).otpRequest.value
  {
  }
}

=== FILE: Strings.dfy ===
/**
 * The string primitives the front end leans on, with JavaScript's meaning:
 * `toLowerCase`, `includes`, `Array.join`/`String.split` with a one-character
 * separator, `Number.toString` on integers and `padStart`.
 */
module Strings {

  predicate IsDigit(c: char) {
    '0' <= c <= '9'
  }

  predicate IsAsciiLetter(c: char) {
    'A' <= c <= 'Z' || 'a' <= c <= 'z'
  }

  predicate AllDigits(s: string) {
    forall i :: 0 <= i < |s| ==> IsDigit(s[i])
  }

  // ---------------------------------------------------------------------------
  // Lower-casing
  // ---------------------------------------------------------------------------

  function LowerChar(c: char): (d: char)
    ensures !('A' <= d <= 'Z')
    ensures !('A' <= c <= 'Z') ==> d == c
  {
    if 'A' <= c <= 'Z' then (c as int + 32) as char else c
  }

  /** ASCII lower-casing: every upper-case Latin letter becomes its lower-case form. */
  function ToLower(s: string): (r: string)
    ensures |r| == |s|
    ensures forall i :: 0 <= i < |s| ==> r[i] == LowerChar(s[i])
  {
    if |s| == 0 then "" else [LowerChar(s[0])] + ToLower(s[1..])
  }

  /** Lower-casing twice is lower-casing once. */
  lemma ToLowerIdempotent(s: string)
    ensures ToLower(ToLower(s)) == ToLower(s)
  {
    var t := ToLower(s);
    assert forall i :: 0 <= i < |t| ==> LowerChar(t[i]) == t[i];
  }

  /** Lower-casing cannot produce a letter whose two cases are both absent. */
  lemma LowerKeepsAbsent(s: string, c: char)
    requires 'a' <= c <= 'z' && c !in s && (c as int - 32) as char !in s
    ensures c !in ToLower(s)
  {
  }

  // ---------------------------------------------------------------------------
  // Substring search
  // ---------------------------------------------------------------------------

  predicate StartsWith(s: string, p: string) {
    |p| <= |s| && s[..|p|] == p
  }

  /** `s.includes(p)`: `p` occurs somewhere in `s` (the empty string occurs everywhere). */
  predicate Contains(s: string, p: string)
    decreases |s|
  {
    StartsWith(s, p) || (|s| > 0 && Contains(s[1..], p))
  }

  /** An occurrence in a suffix of `s` is an occurrence in `s`. */
  lemma {:induction false} ContainsInSuffix(s: string, k: nat, p: string)
    requires k <= |s|
    requires Contains(s[k..], p)
    ensures Contains(s, p)
    decreases k
  {
    if k > 0 {
      assert s[1..][k - 1..] == s[k..];
      ContainsInSuffix(s[1..], k - 1, p);
    }
  }

  /** Whoever contains `a + b` contains `b`. */
  lemma {:induction false} ContainsTail(s: string, a: string, b: string)
    requires Contains(s, a + b)
    ensures Contains(s, b)
    decreases |s|
  {
    if StartsWith(s, a + b) {
      assert s[|a|..][..|b|] == (a + b)[|a|..];
      ContainsInSuffix(s, |a|, b);
    } else {
      ContainsTail(s[1..], a, b);
    }
  }

  /** A string lacking a letter of `p` cannot contain `p`. */
  lemma {:induction false} AbsentLetter(s: string, p: string, c: char)
    requires c in p && c !in s
    ensures !Contains(s, p)
    decreases |s|
  {
    if |s| > 0 {
      AbsentLetter(s[1..], p, c);
    }
  }

  // ---------------------------------------------------------------------------
  // Join and split with a one-character separator
  // ---------------------------------------------------------------------------

  /** `parts.join(sep)`. */
  function Join(parts: seq<string>, sep: char): (r: string)
    ensures |parts| == 1 ==> r == parts[0]
  {
    if |parts| == 0 then ""
    else if |parts| == 1 then parts[0]
    else parts[0] + [sep] + Join(parts[1..], sep)
  }

  /** Position of the first `c` in `s`. */
  function IndexOf(s: string, c: char): (i: nat)
    requires c in s
    ensures i < |s| && s[i] == c
    ensures c !in s[..i]
  {
    if s[0] == c then 0
    else
      var j := IndexOf(s[1..], c);
      assert s[..j + 1] == [s[0]] + s[1..][..j];
      j + 1
  }

  /** `s.split(sep)`: always at least one piece; no piece contains the separator. */
  function Split(s: string, sep: char): (r: seq<string>)
    ensures |r| >= 1
    ensures forall i :: 0 <= i < |r| ==> sep !in r[i]
    decreases |s|
  {
    if sep !in s then [s]
    else
      var i := IndexOf(s, sep);
      [s[..i]] + Split(s[i + 1..], sep)
  }

  /** Splitting at a separator that follows a separator-free part cuts off exactly that part. */
  lemma SplitAfterPart(p: string, sep: char, rest: string)
    requires sep !in p
    ensures Split(p + [sep] + rest, sep) == [p] + Split(rest, sep)
  {
    var s := p + [sep] + rest;
    assert s[|p|] == sep;
    assert s[..|p|] == p;
    var i := IndexOf(s, sep);
    assert i == |p|;
    assert s[i + 1..] == rest;
  }

  /** Splitting a join gives back the parts, when there is at least one part and none holds the separator. */
  lemma {:induction false} SplitJoin(parts: seq<string>, sep: char)
    requires |parts| >= 1
    requires forall i :: 0 <= i < |parts| ==> sep !in parts[i]
    ensures Split(Join(parts, sep), sep) == parts
  {
    if |parts| > 1 {
      assert sep !in parts[0];
      SplitAfterPart(parts[0], sep, Join(parts[1..], sep));
      SplitJoin(parts[1..], sep);
    }
  }

  // ---------------------------------------------------------------------------
  // Decimal rendering of integers
  // ---------------------------------------------------------------------------

  function DigitChar(d: nat): (c: char)
    requires d < 10
    ensures IsDigit(c)
  {
    ('0' as int + d) as char
  }

  function DigitValue(c: char): (d: nat)
    requires IsDigit(c)
    ensures d < 10 && DigitChar(d) == c
  {
    c as int - '0' as int
  }

  /** Decimal digits of `n`, most significant first, no leading zero. */
  function NatToString(n: nat): (r: string)
    ensures 1 <= |r| && AllDigits(r)
    decreases n
  {
    if n < 10 then [DigitChar(n)] else NatToString(n / 10) + [DigitChar(n % 10)]
  }

  /** Value of a string of decimal digits (the empty string reads as 0). */
  function ParseNat(s: string): nat
    requires AllDigits(s)
  {
    if |s| == 0 then 0 else ParseNat(s[..|s| - 1]) * 10 + DigitValue(s[|s| - 1])
  }

  /** Reading back the rendering of a number gives the number. */
  lemma {:induction false} ParseNatToString(n: nat)
    ensures ParseNat(NatToString(n)) == n
    decreases n
  {
    var r := NatToString(n);
    if n >= 10 {
      assert r[..|r| - 1] == NatToString(n / 10);
      ParseNatToString(n / 10);
    }
  }

  /** Leading zeros do not change the value. */
  lemma {:induction false} ParseNatLeadingZero(s: string)
    requires AllDigits(s)
    ensures ParseNat("0" + s) == ParseNat(s)
    decreases |s|
  {
    if |s| > 0 {
      var t := "0" + s;
      assert t[..|t| - 1] == "0" + s[..|s| - 1];
      ParseNatLeadingZero(s[..|s| - 1]);
    }
  }

  /** Number of decimal digits of `n`. */
  lemma {:induction false} NatToStringLength(n: nat)
    ensures n < 10 ==> |NatToString(n)| == 1
    ensures 10 <= n < 100 ==> |NatToString(n)| == 2
    ensures 1000 <= n < 10000 ==> |NatToString(n)| == 4
    decreases n
  {
    if n >= 10 {
      NatToStringLength(n / 10);
      if n >= 1000 {
        NatToStringLength(n / 100);
        NatToStringLength(n / 1000);
      }
    }
  }

  /** `Number.toString` on an integer. */
  function IntToString(i: int): (r: string)
    ensures 1 <= |r|
    ensures i >= 0 <==> AllDigits(r)
  {
    if i < 0 then
      var r := "-" + NatToString(-i);
      assert !IsDigit(r[0]);
      r
    else NatToString(i)
  }

  // ---------------------------------------------------------------------------
  // Padding
  // ---------------------------------------------------------------------------

  /** `s.padStart(width, [c])`: `c` repeated in front until the length reaches `width`. */
  function PadStart(s: string, width: nat, c: char): (r: string)
    ensures |r| == if |s| >= width then |s| else width
    ensures r[|r| - |s|..] == s
    ensures forall i :: 0 <= i < |r| - |s| ==> r[i] == c
    decreases width - |s|
  {
    if |s| >= width then s
    else
      var t := [c] + s;
      var r := PadStart(t, width, c);
      assert r[|r| - |t|..] == t;
      assert r[|r| - |s|..] == t[1..];
      assert forall i :: 0 <= i < |r| - |s| ==> r[i] == c by {
        forall i | 0 <= i < |r| - |s|
          ensures r[i] == c
        {
          if i == |r| - |t| {
            assert r[i] == t[0];
          }
        }
      }
      r
  }
}
